=== FILE: README.md ===
# KamooDB storage engine in Dafny

KamooDB is a single-header key/value store (`include/kamoodb.h`). It keeps
everything in one file of fixed-size pages:

- page 0 is a header;
- a chain of **hash blocks** forms the directory, holding storage-pointer slots;
- a chain of **free blocks** lists reusable byte ranges;
- records are stored as `key NUL value NUL` at the byte range their pointer
  designates.

This project models that core and proves what it does:

| file | module | what it models |
|---|---|---|
| `bytes.dfy` | `Bytes`, `Options`, `Multisets` | bytes, NUL-free strings, the optional result, multiset bookkeeping |
| `djb2.dfy` | `Djb2` | `hash_djb2` and `hash_djb2_n`, modulo 2^64 over signed `char` |
| `paged_file.dfy` | `PagedFile` | the paged file as a flat byte sequence: `dbfile_grow`, `dbfile_get_page`, and flat reads and writes |
| `page_io.dfy` | `PageIo` | the page-chunked loops `dbfile_write_po`, `dbfile_read_po`, `dbfile_write`, `dbfile_read`, `dbfile_hash_null` and `dbfile_cmp_null`, as methods with loop invariants |
| `storage_ptr.dfy` | `StoragePtr` | the `(page, offset, size)` triple, its sentinels, `_shift_storage_ptr`, `database_adv_to_val`, block capacities |
| `free_list.dfy` | `FreeList` | the free-list allocator: first fit, carving, growth and deallocation |
| `directory.dfy` | `Directory` | hash blocks, the home slot, the cyclic probe, the rehash probe and `database_rehash_into`, fresh hash blocks |
| `database.dfy` | `Database` | the database state and `database_init`, `database_put`, `database_get`, `database_del` and `database_expand` |

How the state is represented:
- The database is the value `Db(file, dir, free, hashLen, itemCount)`.
- The directory and the free list are sequences of blocks in chain order. Each block keeps the page id it lives on, so following `next` links becomes indexing.
- `hashLen` is the header's block count.
- Every operation is a pure function from one state to the next.

The invariant `Database.Wf` holds:
- the file is well formed and has at least one page;
- the page size is valid: large enough for one slot in a hash block and one in a free block;
- there is at least one block;
- every block has `HashesPerBlock(pageSize)` slots;
- every hash block lives on a page id of 1 or more;
- the block count lies between 1 and the chain length;
- live slots have non-negative offsets;
- every free range is a live pointer with a non-negative offset.

Put, del and expand keep it.

The source's quirks are kept as written, and lemmas state them:
- put counts an overwrite as a new item;
- put reuses the first tombstone it meets even when the key is stored later in the block;
- del of a key that was never stored still tombstones an empty slot and lowers the count;
- a put that finds no slot leaks its allocation.

Where the code and its evident intent disagree, the model follows the code:
- **Fallback loops.** When the home block has no slot, put, get and del loop over the block chain with `block_iter`, which evidently means to scan every block. But each iteration passes `into_block`, the home block, to the probe rather than the block it walks to (`include/kamoodb.h:962-975`, `include/kamoodb.h:990-1001`, `include/kamoodb.h:1021-1033`). The similar loop in `database_rehash_into` does pass the walked block, `list_place` (`include/kamoodb.h:873-885`). So put, get and del only probe the home block again, from slot 0. `Directory.FallbackFindsNothing` proves that this never finds anything, so the model's put, get and del probe the home block once.
- **Del on an empty slot.** Del evidently means to remove a stored key. The code also tombstones the empty slot where the probe stops.

## Model

| member | source | states |
|---|---|---|
| Bytes.Zeros | include/kamoodb.h:167-181 | the fresh pages growth appends are `n` zero bytes |
| Bytes.SignedChar | include/kamoodb.h:48-56 | a byte read through a signed `char` lies in -128..127 and agrees with the byte modulo 256 |
| Djb2.Step | include/kamoodb.h:48-56 | one step `hash * 33 + c` stays below 2^64 (`size_t` wrap-around) |
| Djb2.HashN | include/kamoodb.h:58-63 | `hash_djb2_n` reports a NUL exactly when one lies in the first `n` bytes; its hash is that of the chunk, or of the whole string when the NUL was in the chunk |
| Djb2.HashFromAppend | include/kamoodb.h:48-63 | hashing a NUL-free prefix and then the rest equals hashing the concatenation |
| Djb2.ChunkedHash | include/kamoodb.h:58-63 | hashing in chunks with `hash_djb2_n`, threading the running hash, equals `hash_djb2` of the whole string |
| Djb2.HashOfTerminated | include/kamoodb.h:48-56 | a key and the key with its terminator hash alike |
| PagedFile.Grow | include/kamoodb.h:167-181 | growth appends `n` zero pages and returns the old page count, the first new page |
| PagedFile.GrowKeepsBytes | include/kamoodb.h:167-181 | growth changes no byte that could be read before it |
| PagedFile.GetPage | include/kamoodb.h:184-193 | asking for page `n` grows the file to at least `n + 1` pages and nothing else |
| PagedFile.WriteFlat | include/kamoodb.h:228-241 | the flat write holds `d` on its range, grows the file to cover it, and leaves every other byte as it was |
| PagedFile.WriteThenReadFlat | include/kamoodb.h:228-256 | reading back a written range yields the data; reads of disjoint ranges are unchanged |
| PagedFile.WriteFlatOutside | include/kamoodb.h:228-241 | a write changes no byte outside its range |
| PagedFile.KeyAt | include/kamoodb.h:258-271 | the stored C string at a position has no NUL and is followed by one |
| PagedFile.KeyAtIff | include/kamoodb.h:292-310 | the stored key is `k` exactly when the bytes there are `k` and a NUL |
| PageIo.WritePages | include/kamoodb.h:228-241 | `dbfile_write_po` across page boundaries gives exactly the flat write |
| PageIo.ReadPages | include/kamoodb.h:243-256 | `dbfile_read_po` returns the flat range and only grows the file by the zero pages it touched |
| PageIo.GetPlace | include/kamoodb.h:200-207 | a flat offset splits into `(page, offset < pageSize)` exactly when it lies inside the file |
| PageIo.WriteAt | include/kamoodb.h:209-226 | `dbfile_write` is refused past the end of the file and is otherwise the flat write |
| PageIo.ReadAt | include/kamoodb.h:273-290 | `dbfile_read` is refused past the end of the file and otherwise returns the flat range |
| PageIo.WriteThenRead | include/kamoodb.h:228-256 | writing with `dbfile_write_po` and reading back with `dbfile_read_po` returns the data; bytes outside the range are unchanged |
| PageIo.HashNull | include/kamoodb.h:258-271 | `dbfile_hash_null` returns `hash_djb2` of the key stored at `(page, offset)`, across page boundaries |
| PageIo.StrnEqSpec | include/kamoodb.h:292-310 | the per-chunk `strncmp` accepts equal ranges, and accepts only equal ranges when there is no early NUL |
| PageIo.CmpNull | include/kamoodb.h:292-310 | `dbfile_cmp_null` accepts equal ranges, and for a key with its terminator accepts exactly the equal ones |
| StoragePtr.MarkDeleted | include/kamoodb.h:469-471 | tombstoning sets the page to -1 and keeps offset and size |
| StoragePtr.Shift | include/kamoodb.h:449-454 | carving `amount` bytes shrinks the range by exactly `amount` |
| StoragePtr.ShiftLoc | include/kamoodb.h:449-454 | the carved range starts `amount + (amount / pageSize) * pageSize` bytes further on, so exactly `amount` only for carvings shorter than a page |
| StoragePtr.AdvToVal | include/kamoodb.h:888-898 | the value pointer designates the position exactly `keySize` bytes past the record start, with `keySize` fewer bytes |
| StoragePtr.ItemsPerBlock | include/kamoodb.h:380-383 | the most pointer triples that fit in a page after the 8-byte free-block header |
| StoragePtr.HashesPerBlock | include/kamoodb.h:385-392 | the most pointer triples that fit in a page after the 4-byte hash-block header |
| FreeList.FirstFit | include/kamoodb.h:608-625 | the index of the first range of at least `minSize` bytes, -1 exactly when none fits |
| FreeList.FindSpacePtr | include/kamoodb.h:608-625 | first fit: the result is `(page, offset, minSize)` of the first fitting range, which shrinks by `minSize` or is removed (keeping the others in order) when it reaches 0; nothing changes when nothing fits |
| FreeList.FindSpaceStorage | include/kamoodb.h:640-652 | the first block with a fitting range is carved and no other; failure exactly when no block fits, with the chain unchanged |
| FreeList.FindSpaceBlock | include/kamoodb.h:627-638 | the first block with room for another range, -1 exactly when all are full |
| FreeList.PlacePtr | include/kamoodb.h:677-682 | the range goes in at index `count` and the count rises by one |
| FreeList.AddSpaceBlock | include/kamoodb.h:684-697 | a fresh empty free block on the old page count is linked at the end |
| FreeList.AddStorageBlocks | include/kamoodb.h:739-747 | growth by `size / pageSize + 1` pages, always enough for `size`, recording only `(first new page, 0, size)` in the first block with room |
| FreeList.Allocate | include/kamoodb.h:749-757 | the pointer has exactly the requested size; growth happens exactly when nothing fits; without growth the pointer starts at the first fitting range; with growth it is `(old page count, 0, size)`, the file grows by exactly `size / pageSize + 1` pages and the chain is as before |
| FreeList.Deallocate | include/kamoodb.h:759-772 | a pointer with page ≤ 0 is ignored; otherwise it is appended to the first block with room, or to a new block linked at the end when all are full |
| FreeList.DeallocateAddsRange | include/kamoodb.h:759-772 | deallocating a live pointer adds exactly that range to the free ranges |
| FreeList.FindSpaceCarves | include/kamoodb.h:640-652 | a successful search removes its range's bytes from the free ranges and keeps the rest |
| FreeList.AllocateCarvesRange | include/kamoodb.h:749-757 | without growth, an allocation takes its bytes out of one free range and leaves the other ranges |
| FreeList.FindSpacePtrExample | include/kamoodb.h:608-625 | a 200-byte range at (66, 102) yields (66, 102, 32) and keeps 168 bytes from offset 134 |
| FreeList.FindSpacePtrZeroExample | include/kamoodb.h:608-625 | a range carved to nothing is removed and the later range moves into its place |
| FreeList.AllocateTwiceExample | include/kamoodb.h:749-757 | two 32-byte allocations from a fresh database's free list share page 3 at offsets 0 and 32, without growth |
| FreeList.AllocateLargeExample | include/kamoodb.h:739-757 | a two-page allocation after a small one grows the file by 3 pages and returns `(5, 0, 8192)` |
| FreeList.DeallocateTwiceExample | include/kamoodb.h:759-772 | deallocating two ranges raises the one free block's count by one each time |
| Directory.Home | include/kamoodb.h:950-955 | the home block and place recombine to `hash % (blocks * per)` and lie inside the directory |
| Directory.Scan | include/kamoodb.h:778-820 | the cyclic scan from the start slot returns the first qualifying slot in that order, -1 exactly when none qualifies |
| Directory.Probe | include/kamoodb.h:778-820 | `database_hash_and_probe` stops at the first empty slot, tombstone (only for put) or slot holding the key, cyclically from the start; NULL exactly when no slot of the block qualifies |
| Directory.ProbeUnique | include/kamoodb.h:778-820 | a qualifying slot with no qualifying slot nearer the start is the probe's answer |
| Directory.FallbackFindsNothing | include/kamoodb.h:962-975 | the fallback re-probe of the home block from slot 0 finds nothing when the first probe found nothing |
| Directory.RehashProbe | include/kamoodb.h:824-847 | the rehash probe stops only at empty slots, cyclically from the start |
| Directory.RehashInto | include/kamoodb.h:859-886 | a pointer with page < 1 is skipped; otherwise only empty slots are filled, with the pointer itself, and the chain keeps its shape and page ids |
| Directory.RehashIntoPlaces | include/kamoodb.h:824-886 | a live pointer is placed exactly when some block has an empty slot: in the first empty slot from its home place when its home block has one, otherwise in the first empty slot of the first block of the chain that has one, and nowhere else |
| Directory.RehashIntoCounts | include/kamoodb.h:859-886 | with an empty slot anywhere, a live pointer is rehashed into exactly one formerly empty slot |
| Directory.RehashAllCounts | include/kamoodb.h:907-918 | rehashing a run of pointers with room for all adds exactly their live pointers and uses one empty slot each |
| Directory.MakeHashBlocks | include/kamoodb.h:720-737 | `n` fresh, all-empty blocks on consecutive pages from the old page count |
| Directory.AddHashBlocks | include/kamoodb.h:699-718 | linking `n` fresh blocks at the end keeps the live pointers and adds `n * per` empty slots |
| Directory.PlaceLive | include/kamoodb.h:429-433 | writing one slot replaces its live pointer (if any) by the new one in the directory's live pointers |
| Database.Init | include/kamoodb.h:1036-1066 | a fresh database is well formed: one empty hash block on page 1, block count 1, no items, and the free range `(3, 0, pageSize)` on page 2, with 5 pages |
| Database.Alloc | include/kamoodb.h:749-757 | the allocation put makes is live, has the record's size, and leaves sound free ranges |
| Database.Record | include/kamoodb.h:939-944 | the record is the key, a NUL, the value and a NUL |
| Database.PutWith | include/kamoodb.h:936-976 | put keeps the block count; a failed put leaves the directory and the count, and keeps the free list the allocation left; a successful one raises the count by one, also on overwrite |
| Database.PutSucceeds | include/kamoodb.h:955-961 | put succeeds exactly when some home-block slot stops a put probe, in particular whenever the block has an empty slot or a tombstone |
| Database.PutKeepsWf | include/kamoodb.h:936-976 | put keeps the invariant, whether it succeeds or fails |
| Database.PutAccounts | include/kamoodb.h:955-959 | a successful put swaps the slot's old pointer for the new one among the live pointers, and hands the old range (if live) to the free list |
| Database.StageWrites | include/kamoodb.h:940-947 | the key with its NUL and the value with its NUL read back at the allocated position |
| Database.PutResult | include/kamoodb.h:955-959 | a successful put leaves the written bytes, changes only the probed slot of the home block, and leaves every other directory block as it was |
| Database.PutPassedSlots | include/kamoodb.h:936-1002 | every slot a later get probe passes before the new record stops no get probe |
| Database.PutThenGet | include/kamoodb.h:936-1002 | after a successful put of `key`, get of `key` returns the value with its NUL |
| Database.PutWithThenGet | include/kamoodb.h:936-1002 | the same for any allocation with the properties put relies on |
| Database.Get | include/kamoodb.h:978-1002 | get returns a value only when some home-block slot holds the key |
| Database.GetFinds | include/kamoodb.h:978-1002 | get returns the bytes past the key and its NUL of the first slot that stops a get probe |
| Database.GetSomeIff | include/kamoodb.h:978-1002 | get finds a value exactly when its probe stops at a slot holding the key |
| Database.GetNoneWhenAbsent | include/kamoodb.h:978-1002 | with no record of the key in its home block, get returns nothing |
| Database.Del | include/kamoodb.h:1004-1034 | del succeeds exactly when some home-block slot stops a get probe, and then lowers the count by one; otherwise nothing changes |
| Database.DelKeepsWf | include/kamoodb.h:1004-1034 | del keeps the invariant |
| Database.DelAccounts | include/kamoodb.h:1013-1018 | a successful del removes the slot's pointer from the live pointers and hands its range (if live) to the free list |
| Database.DelResult | include/kamoodb.h:1004-1034 | del changes no readable byte and no directory block but the key's home block; a successful del changes only the probed slot, which becomes a tombstone |
| Database.DelThenGet | include/kamoodb.h:978-1034 | after del of a key stored once in its home block, get of it returns nothing |
| Database.DelAbsentOnFresh | include/kamoodb.h:1013-1018 | del of a never-stored key on a fresh database succeeds, tombstones its empty home slot and takes the count to -1 |
| Database.PutFailKeeps | include/kamoodb.h:945-976 | a put that finds no slot leaves the record written at the allocated position, the live pointers unchanged and the free list the allocation left |
| Database.PutFailLeaks | include/kamoodb.h:945-976 | a failed put leaks its allocation: the carved range lost the record's bytes while the directory gained nothing, or, after growth, the free list is as before |
| Database.PutAtHomeTombstone | include/kamoodb.h:955-959 | a tombstone at the home place takes the new record even when the key is stored in another slot, which keeps its record |
| Database.FreeOld | include/kamoodb.h:922-930 | freeing the old blocks grows the file by at most one page per block |
| Database.FreeOldAddsRanges | include/kamoodb.h:922-930 | freeing the old blocks adds exactly their `(page, 0, pageSize)` ranges to the free list |
| Database.Expand | include/kamoodb.h:900-934 | expand sets the block count to the new chain length, `old + n`, and leaves the item count |
| Database.GetSame | include/kamoodb.h:978-1002 | get depends only on the key's home block and the bytes its records hold: states agreeing on those give the same answer |
| Database.GetSameStops | include/kamoodb.h:978-1002 | get depends only on where the probe of the home block stops, the pointers there and the bytes of the records: states agreeing on those give the same answer |
| Database.GetSameAt | include/kamoodb.h:978-1002 | get finds the same value when the slot its probe stopped at keeps its pointer and record bytes and no nearer slot stops it |
| Directory.MatchesOneKey | include/kamoodb.h:774-776 | a stored record matches at most one NUL-free key |
| Database.DelKeepsOtherBlock | include/kamoodb.h:1004-1034 | del of a key leaves get of any key with another home block unchanged (two home blocks exist once the directory has grown) |
| Database.DelKeepsOther | tests/db_tests.c:305-311 | del of a stored key leaves get of any other NUL-free key unchanged, also when both share a home block |
| Database.PutFile | include/kamoodb.h:945-959 | put, found slot or not, changes no byte outside the record's range, and the key and its NUL read back at its start |
| Database.PutKeepsOtherBlock | include/kamoodb.h:936-1002 | put of a key leaves get of any key with another home block unchanged, when the new record's range misses that key's records |
| Database.PutKeepsOther | tests/db_tests.c:366-372 | put of a key leaves get of any other stored NUL-free key unchanged, also when both share a home block, when the new record's range misses that key's records |
| Directory.RehashIntoOverflow | include/kamoodb.h:859-886 | a pointer whose home block is full is placed in another block, and the home block keeps what it held |
| Database.ExpandMoves | include/kamoodb.h:900-934 | the new directory has the same live pointers, no tombstones, and `capacity - live` empty slots, on the pages from the old page count |
| Database.ExpandFreeRanges | include/kamoodb.h:922-930 | after expand the free ranges are the old ones plus each old block's `(page, 0, pageSize)` |
| Database.ExpandKeepsBytes | include/kamoodb.h:900-934 | expand keeps the file well formed, never shrinks it, and changes no byte |
| Database.ExpandFrees | include/kamoodb.h:900-934 | the old blocks' pages join the free list and no stored byte changes |
| Database.ExpandKeepsWf | include/kamoodb.h:900-934 | expand keeps the invariant |

## Left out

- **OS helpers and the mapping lifecycle.** The file-system helpers and the mmap, msync, open and close calls (`include/kamoodb.h:21-44`, `include/kamoodb.h:127-165`, `include/kamoodb.h:195-198`, `include/kamoodb.h:312-333`, `include/kamoodb.h:1068-1088`) are I/O. The page size is a parameter, and growth appends zero pages.
- **`page_vec`.** It is a utility the database never uses (`include/kamoodb.h:72-104`).
- **`database_get_load_factor`.** It is a floating-point division. The integer item count and block count are modelled instead.
- **Buffer management.** `malloc`, `free`, `str_dupl` and the temporary buffer of `_erase_region` are left out; slot removal is sequence deletion. The `printf` in `database_allocate_storage` is dropped.
- **Byte layout of the header and blocks.** The int32/int64 layout is abstracted: blocks are sequences of pointer triples with their page ids, and they are kept apart from the record bytes. The header's root pointers are the first block of each sequence.
- **Reads do not grow the file.** The database layer (put, get, del, expand) reads through the flat reference functions. In the source, `dbfile_get_page` on a read can append zero pages. No read byte changes this way, and `PageIo.ReadPages` and `PageIo.HashNull` show it for the loops themselves.
- **Offsets beyond a page.** A pointer whose offset is at or past the page size comes from `_shift_storage_ptr` and `database_adv_to_val`. The database layer reads and writes it at its flat position `page * pageSize + offset`. The page-chunked loops require `offset < pageSize`, because they compute `pageSize - offset` unsigned.
- **Integer widths.** Page, offset and size are unbounded integers. Only the djb2 hash models its `size_t` wrap-around; 32-bit overflow of pointer fields is not modelled.
- **Key comparison in the database layer.** `Directory.Stops` compares a key by a flat read of `|key| + 1` bytes. `PageIo.CmpNull` proves the chunked `dbfile_cmp_null` gives that answer for keys without an inner NUL.
- **Chain walks.** `database_get_hash_block`, `database_hashlist_get_n`, `database_get_hash_block_count` and `database_recomp_hash_len` are indexing and length of the block sequence.
- **Automatic expansion.** The test driver calls `database_set_factor_lim` (tests/db_tests.c:407), which the header does not define. There is no automatic expansion to model, and expand is an explicit operation.
- Database.Put: keys and values are byte sequences and may hold an inner NUL, which no C string can. For such input the model hashes up to the first NUL as the source does, but writes the whole sequence, and `Directory.KeyMatches` compares all `|key| + 1` bytes where `dbfile_cmp_null` would stop at the NUL. Get and del accept such keys in the same way.
- Database.Get: a record whose pointer size is below the key size would make the source `malloc` a negative size; the model reads 0 bytes instead.
- Database.Put: requires `CanAllocate`. Without a fitting range and with every free block full, `database_add_storage_blocks` would write through page -1.
- Database.DelThenGet: requires that the key is stored at most once in its home block. Put can break this (`Database.PutAtHomeTombstone`), and then get finds the older copy.
- Database.ExpandMoves: does not state that get finds every key after expand, because in the source it need not. When more than a block's worth of live records share a new home block, `database_rehash_into` walks the chain and puts the overflow in another block (`Directory.RehashIntoOverflow`), while `database_get` probes only the home block, so get of that key finds nothing. A key stored twice through the tombstone quirk (`Database.PutAtHomeTombstone`) can also make get return the older copy after the rehash.
- Database.PutKeepsOther: requires that the other key is stored. For an absent key, staying absent would need an invariant that no record of a key lies past an empty slot on its probe path, and this model does not carry one. The range hypothesis is the same as `Database.PutKeepsOtherBlock`'s, below.
- Database.DelKeepsOther: requires that the deleted key is stored. Del of an absent key tombstones the empty slot where its probe stops (`Database.DelAbsentOnFresh`), which can let another key's probe run on past it.
- Database.PutKeepsOtherBlock: requires that the new record's range misses the bytes of the other key's records. The source keeps no invariant that allocated ranges avoid live records, and carving a range of a page or more (`StoragePtr.ShiftLoc`) can move a free remainder past the end of its range, so this is not derivable from `Database.Wf`.
- Database.PutAtHomeTombstone: does not state that the other slot still reads back the key. That needs an invariant that allocated ranges never overlap live records, and this model does not carry one.

=== FILE: bytes.dfy ===
/** Byte-level vocabulary shared by every layer of the store. */
module Bytes {

  /** One byte of the backing file, as an unsigned value. */
  type byte = x: int | 0 <= x < 256

  /** A run of `n` zero bytes: what freshly grown pages contain. */
  function Zeros(n: nat): (z: seq<byte>)
    ensures |z| == n
    ensures forall i :: 0 <= i < n ==> z[i] == 0
  {
    seq(n, _ => 0)
  }

  /** A C string body: no byte is the NUL terminator. */
  predicate NoNul(s: seq<byte>) {
    forall i :: 0 <= i < |s| ==> s[i] != 0
  }

  /** The value a (signed) `char` byte has once it is promoted to `int`. */
  function SignedChar(b: byte): (c: int)
    ensures -128 <= c < 128
    ensures c % 256 == b
  {
    if b < 128 then b else b - 256
  }

  lemma ZerosConcat(a: nat, b: nat)
    ensures Zeros(a) + Zeros(b) == Zeros(a + b)
  {
  }
}

/** The optional result used where the source returns NULL or -1. */
module Options {

  datatype Option<+T> = None | Some(value: T)
}

/** Multiset facts about sequence edits, used to account for slots. */
module Multisets {

  lemma MultisetRemove<T>(xs: seq<T>, i: nat)
    requires i < |xs|
    ensures multiset(xs[..i] + xs[i + 1..]) + multiset{xs[i]} == multiset(xs)
  {
    assert xs == xs[..i] + [xs[i]] + xs[i + 1..];
  }

  lemma MultisetReplace<T>(xs: seq<T>, i: nat, y: T)
    requires i < |xs|
    ensures multiset(xs[i := y]) + multiset{xs[i]} == multiset(xs) + multiset{y}
  {
    assert xs == xs[..i] + [xs[i]] + xs[i + 1..];
    assert xs[i := y] == xs[..i] + [y] + xs[i + 1..];
  }

  /** Adding `p` before `rest` or after it gives the same total. */
  lemma MultisetShift<T>(whole: multiset<T>, mid: multiset<T>, base: multiset<T>, p: multiset<T>, rest: multiset<T>)
    requires whole == mid + rest && mid == base + p
    ensures whole == base + (p + rest)
  {
  }

  lemma MultisetCancel<T>(a: multiset<T>, b: multiset<T>, m: multiset<T>)
    requires a + m == b + m
    ensures a == b
  {
    forall x
      ensures a[x] == b[x]
    {
      assert (a + m)[x] == (b + m)[x];
    }
  }
}

=== FILE: database.dfy ===
/**
  The database: a paged file holding the records, the hash directory, the
  free-range chain, and the two header fields the operations maintain (the
  directory length in blocks and the item count).

  A record is the key, a NUL, the value and a NUL, written at the position
  its storage pointer designates. The directory and free-list blocks are kept
  as structured values beside the file rather than as bytes inside it; their
  page ids still come from the file's page count as it grows.
*/
module Database {
  import opened Bytes
  import opened Options
  import opened StoragePtr
  import opened PagedFile
  import opened FreeList
  import opened Directory
  import opened Multisets
  import Djb2

  datatype Db = Db(file: File, dir: seq<HashBlock>, free: seq<FreeBlock>, hashLen: nat, itemCount: int)

  /** Every recorded free range is a live pointer with a non-negative offset. */
  predicate RangesOk(m: multiset<Ptr>) {
    forall p :: p in m ==> IsLive(p) && p.offset >= 0
  }

  /**
    The state every operation keeps: a page size with room for a slot in
    both kinds of block, a non-empty directory of equal blocks on pages from
    1 on, a header length within the chain, and sound pointers everywhere.
  */
  predicate Wf(db: Db) {
    && Valid(db.file) && ValidPageSize(db.file.pageSize) && db.file.pageCount >= 1
    && |db.dir| >= 1 && Shaped(db.dir, HashesPerBlock(db.file.pageSize))
    && 1 <= db.hashLen <= |db.dir|
    && DirOffsets(db.dir)
    && (forall b :: 0 <= b < |db.dir| ==> db.dir[b].id >= 1)
    && RangesOk(AllSlots(db.free))
  }

  /** Slots per hash block of the database's page size. */
  function Per(db: Db): nat
    requires ValidPageSize(db.file.pageSize)
  {
    HashesPerBlock(db.file.pageSize)
  }

  /**
    `database_init` on a one-page file: the hash root and the space root are
    the next two pages, the directory is that one empty block, and an initial
    storage range of one page's size is recorded on pages appended after them.
  */
  function Init(pageSize: nat): (db: Db)
    requires ValidPageSize(pageSize)
    ensures Wf(db)
    ensures |db.dir| == 1 && db.dir[0].id == 1 && db.hashLen == 1 && db.itemCount == 0
    ensures Live(db.dir) == multiset{} && NoTombs(db.dir) && Empties(db.dir) == Per(db)
    ensures db.dir[0].slots == EmptySlots(Per(db))
    ensures |db.free| == 1 && db.free[0] == FreeBlock(2, [Ptr(3, 0, pageSize)])
    ensures db.file.pageCount == 5
  {
    CapacitiesPositive(pageSize);
    var f0 := File(pageSize, 1, Zeros(pageSize));
    var hashRoot := Grow(f0, 1);
    var spaceRoot := Grow(hashRoot.1, 1);
    var dir := MakeHashBlocks(hashRoot.0, 1, HashesPerBlock(pageSize)).1;
    var free := [FreeBlock(spaceRoot.0, [])];
    var added := AddStorageBlocks(spaceRoot.1.pageCount, pageSize, free, pageSize);
    assert pageSize / pageSize == 1;
    Db(Grow(spaceRoot.1, added.1).1, dir, added.2, 1, 0)
  }

  // ---------------------------------------------------------------------------
  // Allocation inside the database

  /** `database_allocate_storage` can run: a range fits, or some free block has room for the growth range. */
  predicate CanAllocate(db: Db, size: nat)
    requires ValidPageSize(db.file.pageSize)
  {
    FitsAny(db.free, size) || FindSpaceBlock(db.free, ItemsPerBlock(db.file.pageSize)) != -1
  }

  lemma {:induction false} SlotInAll(free: seq<FreeBlock>, k: nat, j: nat)
    requires k < |free| && j < |free[k].slots|
    ensures free[k].slots[j] in AllSlots(free)
    decreases k
  {
    if k > 0 {
      SlotInAll(free[1..], k - 1, j);
    }
  }

  /** Carving a range off the front of a sound range leaves a sound range. */
  lemma CarveKeepsRanges(free: seq<FreeBlock>, size: nat, pageSize: nat)
    requires ValidPageSize(pageSize) && FitsAny(free, size) && RangesOk(AllSlots(free))
    ensures var k := FirstFitBlock(free, size);
            var s := free[k].slots[FirstFit(free[k].slots, size)];
            IsLive(s) && s.offset >= 0 && IsLive(Shift(s, size, pageSize)) && Shift(s, size, pageSize).offset >= 0
  {
    var k := FirstFitBlock(free, size);
    var j := FirstFit(free[k].slots, size);
    SlotInAll(free, k, j);
    ShiftLive(free[k].slots[j], size, pageSize);
  }

  /**
    An allocation from sound free ranges hands out a live pointer with a
    non-negative offset, and what it leaves in the free list is still sound.
  */
  lemma AllocateKeepsRanges(pageCount: nat, pageSize: nat, free: seq<FreeBlock>, size: nat)
    requires ValidPageSize(pageSize) && pageCount >= 1 && RangesOk(AllSlots(free))
    requires FitsAny(free, size) || FindSpaceBlock(free, ItemsPerBlock(pageSize)) != -1
    ensures var a := Allocate(pageCount, pageSize, free, size);
            IsLive(a.ptr) && a.ptr.offset >= 0 && RangesOk(AllSlots(a.free))
  {
    var a := Allocate(pageCount, pageSize, free, size);
    if FitsAny(free, size) {
      AllocateCarvesRange(pageCount, pageSize, free, size);
      CarveKeepsRanges(free, size, pageSize);
      var k := FirstFitBlock(free, size);
      var s := free[k].slots[FirstFit(free[k].slots, size)];
      var left := if s.size == size then multiset{} else multiset{Shift(s, size, pageSize)};
      assert AllSlots(a.free) + multiset{s} == AllSlots(free) + left;
      forall q | q in AllSlots(a.free)
        ensures IsLive(q) && q.offset >= 0
      {
        assert q in AllSlots(free) + left;
      }
    }
  }

  /** What the rest of put relies on about an allocation of `size` bytes. */
  predicate Granted(size: nat, a: Allocation) {
    IsLive(a.ptr) && a.ptr.offset >= 0 && a.ptr.size == size && RangesOk(AllSlots(a.free))
  }

  /** `database_allocate_storage` on the database's page count and free list. */
  function Alloc(db: Db, size: nat): (a: Allocation)
    requires Wf(db) && CanAllocate(db, size)
    ensures Granted(size, a)
  {
    AllocateKeepsRanges(db.file.pageCount, db.file.pageSize, db.free, size);
    Allocate(db.file.pageCount, db.file.pageSize, db.free, size)
  }

  // ---------------------------------------------------------------------------
  // Records and the home block

  /** The bytes `database_put` writes: the key, a NUL, the value, a NUL. */
  function Record(key: seq<byte>, val: seq<byte>): (r: seq<byte>)
    ensures |r| == |key| + 1 + |val| + 1
    ensures r[..|key| + 1] == key + [0] && r[|key| + 1..] == val + [0]
  {
    key + [0] + val + [0]
  }

  /** Where a key's probe starts: its home block and the place in it. */
  function HomeOf(db: Db, key: seq<byte>): (r: (nat, nat))
    requires Wf(db)
    ensures r.0 < |db.dir| && r.1 < Per(db)
  {
    CapacitiesPositive(db.file.pageSize);
    Home(Djb2.Hash(key), db.hashLen, Per(db))
  }

  /** The slots of a key's home block. */
  function HomeSlots(db: Db, key: seq<byte>): (s: seq<Ptr>)
    requires Wf(db)
    ensures |s| == Per(db) && HomeOf(db, key).1 < |s|
  {
    db.dir[HomeOf(db, key).0].slots
  }

  /** The middle of `database_put`: the file once the record is written, and the slot the put probe returns. */
  datatype Staged = Staged(written: File, slot: int)

  function Stage(db: Db, key: seq<byte>, val: seq<byte>, a: Allocation): (s: Staged)
    requires Wf(db) && Granted(|Record(key, val)|, a)
    ensures Valid(s.written) && s.written.pageSize == db.file.pageSize && s.written.pageCount >= 1
    ensures -1 <= s.slot < Per(db)
  {
    LiveLoc(a.ptr, db.file.pageSize);
    var grown := Grow(db.file, a.grown).1;
    var written := WriteFlat(grown, Loc(a.ptr, db.file.pageSize), Record(key, val));
    Staged(written, Probe(written, HomeSlots(db, key), HomeOf(db, key).1, key, true))
  }

  // ---------------------------------------------------------------------------
  // Put, get, del

  /**
    `database_put` once the allocation `a` is made: write the record, then
    probe the home block for a put. When a slot is found, its old range (if
    live) is freed, it takes the new pointer and the item count rises by one,
    even when the key was already stored. Otherwise put fails, and the record
    stays written in a range that is no longer free.
  */
  function PutWith(db: Db, key: seq<byte>, val: seq<byte>, a: Allocation): (r: (bool, Db))
    requires Wf(db) && Granted(|Record(key, val)|, a)
    ensures r.1.hashLen == db.hashLen && |r.1.dir| == |db.dir|
    ensures !r.0 ==> r.1.dir == db.dir && r.1.itemCount == db.itemCount && r.1.free == a.free
    ensures r.0 ==> r.1.itemCount == db.itemCount + 1
  {
    var s := Stage(db, key, val, a);
    if s.slot == -1 then (false, db.(file := s.written, free := a.free))
    else
      var prev := HomeSlots(db, key)[s.slot];
      var d := Deallocate(s.written.pageCount, db.file.pageSize, a.free, prev);
      var dir := Place(db.dir, HomeOf(db, key).0, s.slot, a.ptr);
      (true, Db(Grow(s.written, d.1).1, dir, d.2, db.hashLen, db.itemCount + 1))
  }

  /** `database_put`: allocate room for the record, then as `PutWith`. */
  function Put(db: Db, key: seq<byte>, val: seq<byte>): (r: (bool, Db))
    requires Wf(db) && CanAllocate(db, |Record(key, val)|)
    ensures r.1.hashLen == db.hashLen && |r.1.dir| == |db.dir|
    ensures !r.0 ==> r.1.dir == db.dir && r.1.itemCount == db.itemCount
    ensures r.0 ==> r.1.itemCount == db.itemCount + 1
  {
    PutWith(db, key, val, Alloc(db, |Record(key, val)|))
  }

  /** The slot of the key's home block where a get or del probe stops, or -1. */
  function GetProbe(db: Db, key: seq<byte>): (i: int)
    requires Wf(db)
    ensures -1 <= i < Per(db)
  {
    Probe(db.file, HomeSlots(db, key), HomeOf(db, key).1, key, false)
  }

  /**
    `database_get`: probe the home block (tombstones do not stop it). No slot,
    or an empty one, gives nothing; otherwise the value is read from just past
    the stored key and its NUL, as many bytes as the pointer's size has left
    (the value and its own NUL).
  */
  function Get(db: Db, key: seq<byte>): (r: Option<seq<byte>>)
    requires Wf(db)
    ensures r.Some? ==> exists j :: 0 <= j < Per(db) && KeyMatches(db.file, HomeSlots(db, key)[j], key)
  {
    var slots := HomeSlots(db, key);
    var i := GetProbe(db, key);
    if i == -1 || slots[i].page == 0 then None
    else
      var v := AdvToVal(slots[i], |key| + 1, db.file.pageSize);
      Some(ReadFlat(db.file, Loc(v, db.file.pageSize), if v.size < 0 then 0 else v.size))
  }

  /**
    `database_del`: probe the home block as get does. A slot found is
    tombstoned, its range (if live) is freed and the item count drops by one,
    also when the slot was empty and the key was never stored.
  */
  function Del(db: Db, key: seq<byte>): (r: (bool, Db))
    requires Wf(db)
    ensures r.0 <==> exists j :: 0 <= j < Per(db) && Stops(db.file, HomeSlots(db, key)[j], key, false)
    ensures !r.0 ==> r.1 == db
    ensures r.0 ==> r.1.itemCount == db.itemCount - 1 && r.1.hashLen == db.hashLen && |r.1.dir| == |db.dir|
  {
    var slots := HomeSlots(db, key);
    var home := HomeOf(db, key);
    var i := GetProbe(db, key);
    if i == -1 then (false, db)
    else
      var d := Deallocate(db.file.pageCount, db.file.pageSize, db.free, slots[i]);
      var dir := Place(db.dir, home.0, i, MarkDeleted(slots[i]));
      (true, Db(Grow(db.file, d.1).1, dir, d.2, db.hashLen, db.itemCount - 1))
  }

  // ---------------------------------------------------------------------------
  // The invariant

  /**
    The invariant carries over to a state with a grown file, a directory of
    the same shape and page ids, and free ranges that are still sound.
  */
  lemma WfReplace(db: Db, file: File, dir: seq<HashBlock>, free: seq<FreeBlock>, itemCount: int)
    requires Wf(db)
    requires Valid(file) && file.pageSize == db.file.pageSize && file.pageCount >= 1
    requires |dir| == |db.dir| && DirOffsets(dir) && RangesOk(AllSlots(free))
    requires forall c :: 0 <= c < |dir| ==> dir[c].id == db.dir[c].id && |dir[c].slots| == |db.dir[c].slots|
    ensures Wf(Db(file, dir, free, db.hashLen, itemCount))
  {
  }

  /** Deallocating a live pointer with a sound offset (or anything not live) keeps the free ranges sound. */
  lemma DeallocateKeepsRanges(pageCount: nat, pageSize: nat, free: seq<FreeBlock>, p: Ptr)
    requires ValidPageSize(pageSize) && RangesOk(AllSlots(free)) && (IsLive(p) ==> p.offset >= 0)
    ensures RangesOk(AllSlots(Deallocate(pageCount, pageSize, free, p).2))
  {
    if IsLive(p) {
      DeallocateAddsRange(pageCount, pageSize, free, p);
    }
  }

  /** Writing one directory slot, with sound free ranges and a grown file, keeps the invariant. */
  lemma SlotWriteKeepsWf(db: Db, file: File, b: nat, i: nat, q: Ptr, free: seq<FreeBlock>, itemCount: int)
    requires Wf(db) && b < |db.dir| && i < Per(db) && (IsLive(q) ==> q.offset >= 0)
    requires Valid(file) && file.pageSize == db.file.pageSize && file.pageCount >= 1
    requires RangesOk(AllSlots(free))
    ensures Wf(Db(file, Place(db.dir, b, i, q), free, db.hashLen, itemCount))
  {
    PlaceOffsets(db.dir, b, i, q);
    WfReplace(db, file, Place(db.dir, b, i, q), free, itemCount);
  }

  // ---------------------------------------------------------------------------
  // Put

  /**
    Put succeeds exactly when some slot of the home block stops a put probe
    once the record is written: in particular whenever the block has an
    empty slot or a tombstone.
  */
  lemma PutSucceeds(db: Db, key: seq<byte>, val: seq<byte>, a: Allocation)
    requires Wf(db) && Granted(|Record(key, val)|, a)
    ensures var slots := HomeSlots(db, key);
            PutWith(db, key, val, a).0 <==> exists j :: 0 <= j < |slots| && Stops(Stage(db, key, val, a).written, slots[j], key, true)
    ensures (exists j :: 0 <= j < Per(db) && (IsEmpty(HomeSlots(db, key)[j]) || IsTombstone(HomeSlots(db, key)[j]))) ==>
              PutWith(db, key, val, a).0
  {
  }

  /** Put keeps the database well formed, whether it succeeds or fails. */
  lemma PutKeepsWf(db: Db, key: seq<byte>, val: seq<byte>, a: Allocation)
    requires Wf(db) && Granted(|Record(key, val)|, a)
    ensures Wf(PutWith(db, key, val, a).1)
  {
    var s := Stage(db, key, val, a);
    if s.slot == -1 {
      WfReplace(db, s.written, db.dir, a.free, db.itemCount);
    } else {
      var home := HomeOf(db, key);
      var prev := db.dir[home.0].slots[s.slot];
      assert LiveOffsets(db.dir[home.0].slots);
      var d := Deallocate(s.written.pageCount, db.file.pageSize, a.free, prev);
      DeallocateKeepsRanges(s.written.pageCount, db.file.pageSize, a.free, prev);
      SlotWriteKeepsWf(db, Grow(s.written, d.1).1, home.0, s.slot, a.ptr, d.2, db.itemCount + 1);
    }
  }

  /**
    A successful put adds the new pointer to the directory in place of the
    slot's previous pointer, and returns that previous range to the free
    list when it was live; the free list is otherwise as the allocation left it.
  */
  lemma PutAccounts(db: Db, key: seq<byte>, val: seq<byte>, a: Allocation)
    requires Wf(db) && Granted(|Record(key, val)|, a)
    requires PutWith(db, key, val, a).0
    ensures var r := PutWith(db, key, val, a).1;
            var prev := HomeSlots(db, key)[Stage(db, key, val, a).slot];
            && Live(r.dir) + LiveOf(prev) == Live(db.dir) + multiset{a.ptr}
            && AllSlots(r.free) == AllSlots(a.free) + LiveOf(prev)
  {
    var s := Stage(db, key, val, a);
    var prev := HomeSlots(db, key)[s.slot];
    PlaceLive(db.dir, HomeOf(db, key).0, s.slot, a.ptr);
    if IsLive(prev) {
      DeallocateAddsRange(s.written.pageCount, db.file.pageSize, a.free, prev);
    }
  }

  /** The record put writes reads back: the key and its NUL, then the value and its NUL. */
  lemma StageWrites(db: Db, key: seq<byte>, val: seq<byte>, a: Allocation)
    requires Wf(db) && Granted(|Record(key, val)|, a)
    ensures var w := Stage(db, key, val, a).written;
            var at := Loc(a.ptr, db.file.pageSize);
            && at >= 0
            && ReadFlat(w, at, |key| + 1) == key + [0]
            && ReadFlat(w, at + |key| + 1, |val| + 1) == val + [0]
  {
    var w := Stage(db, key, val, a).written;
    var rec := Record(key, val);
    var at := Loc(a.ptr, db.file.pageSize);
    LiveLoc(a.ptr, db.file.pageSize);
    var grown := Grow(db.file, a.grown).1;
    WriteThenReadFlat(grown, at, rec, 0, 0);
    ReadFlatSplit(w, at, |rec|, |key| + 1);
  }

  /**
    A successful put leaves the file as the record write left it, with zero
    pages appended at most, and the key's home block as it was but for the
    probed slot, which holds the new pointer.
  */
  lemma PutResult(db: Db, key: seq<byte>, val: seq<byte>, a: Allocation)
    requires Wf(db) && Granted(|Record(key, val)|, a)
    requires PutWith(db, key, val, a).0
    ensures Wf(PutWith(db, key, val, a).1)
    ensures var s := Stage(db, key, val, a);
            var r := PutWith(db, key, val, a).1;
            && r.file.pageSize == db.file.pageSize
            && (forall i :: ByteAt(r.file, i) == ByteAt(s.written, i))
            && HomeOf(r, key) == HomeOf(db, key)
            && HomeSlots(r, key) == HomeSlots(db, key)[s.slot := a.ptr]
    ensures forall c :: 0 <= c < |db.dir| && c != HomeOf(db, key).0 ==> PutWith(db, key, val, a).1.dir[c] == db.dir[c]
  {
    var s := Stage(db, key, val, a);
    var d := Deallocate(s.written.pageCount, db.file.pageSize, a.free, HomeSlots(db, key)[s.slot]);
    PutKeepsWf(db, key, val, a);
    ExtendsKeepsBytes(PutWith(db, key, val, a).1.file, s.written, s.written.pageCount + d.1);
  }

  // ---------------------------------------------------------------------------
  // Put then get

  /** No slot a get probe of `key` visits before slot `i` of the home block stops it. */
  predicate ProbeReaches(db: Db, key: seq<byte>, i: nat)
    requires Wf(db)
  {
    var slots := HomeSlots(db, key);
    forall j :: 0 <= j < |slots| && Dist(HomeOf(db, key).1, j, |slots|) < Dist(HomeOf(db, key).1, i, |slots|) ==>
      !Stops(db.file, slots[j], key, false)
  }

  /**
    Get returns the value of the first slot, in probe order from the home
    place, that stops a get probe, when that slot is live: the bytes from
    just past the key and its NUL, as many as the pointer's size has left.
  */
  lemma GetFinds(db: Db, key: seq<byte>, i: nat)
    requires Wf(db) && i < Per(db)
    requires var slots := HomeSlots(db, key);
             && IsLive(slots[i]) && KeyMatches(db.file, slots[i], key)
             && forall j :: 0 <= j < |slots| && Dist(HomeOf(db, key).1, j, |slots|) < Dist(HomeOf(db, key).1, i, |slots|) ==>
                  !Stops(db.file, slots[j], key, false)
    ensures var p := HomeSlots(db, key)[i];
            var n := p.size - (|key| + 1);
            Get(db, key) == Some(ReadFlat(db.file, Loc(p, db.file.pageSize) + |key| + 1, if n < 0 then 0 else n))
  {
    var slots := HomeSlots(db, key);
    var start := HomeOf(db, key).1;
    ProbeUnique(db.file, slots, start, key, false, i);
    assert GetProbe(db, key) == i;
    var v := AdvToVal(slots[i], |key| + 1, db.file.pageSize);
    assert Get(db, key) == Some(ReadFlat(db.file, Loc(v, db.file.pageSize), if v.size < 0 then 0 else v.size));
  }

  /**
    What a get needs to find a record: slot `i` of the key's home block is
    live, designates `at` and has the record's size; the key and the value
    read back there; and no slot the probe visits first stops it.
  */
  predicate RecordFound(r: Db, key: seq<byte>, val: seq<byte>, i: int, at: int)
    requires Wf(r)
  {
    && 0 <= i < Per(r) && at >= 0
    && var p := HomeSlots(r, key)[i];
    && IsLive(p) && Loc(p, r.file.pageSize) == at && p.size == |Record(key, val)|
    && ReadFlat(r.file, at, |key| + 1) == key + [0] && ReadFlat(r.file, at + |key| + 1, |val| + 1) == val + [0]
    && ProbeReaches(r, key, i)
  }

  /** A get finds a record that reads back where the probe reaches it. */
  lemma GetFindsRecord(r: Db, key: seq<byte>, val: seq<byte>, i: int, at: int)
    requires Wf(r) && RecordFound(r, key, val, i, at)
    ensures Get(r, key) == Some(val + [0])
  {
    GetFinds(r, key, i);
  }

  /**
    Every slot the get probe passes before the new record, after a put, is a
    slot the put probe passed: a live record of some other key.
  */
  lemma PutPassedSlots(db: Db, key: seq<byte>, val: seq<byte>, a: Allocation)
    requires Wf(db) && Granted(|Record(key, val)|, a)
    requires PutWith(db, key, val, a).0
    ensures Wf(PutWith(db, key, val, a).1)
    ensures Stage(db, key, val, a).slot >= 0
    ensures ProbeReaches(PutWith(db, key, val, a).1, key, Stage(db, key, val, a).slot)
  {
    var s := Stage(db, key, val, a);
    var r := PutWith(db, key, val, a).1;
    var slots := HomeSlots(db, key);
    PutResult(db, key, val, a);
    var after := HomeSlots(r, key);
    forall j | 0 <= j < |after| && Dist(HomeOf(r, key).1, j, |after|) < Dist(HomeOf(r, key).1, s.slot, |after|)
      ensures !Stops(r.file, after[j], key, false)
    {
      KeyMatchesSame(r.file, s.written, slots[j], key);
    }
  }

  /** After a successful put, the probed slot holds a live pointer at whose position the record reads back. */
  lemma PutReadsBack(db: Db, key: seq<byte>, val: seq<byte>, a: Allocation)
    requires Wf(db) && Granted(|Record(key, val)|, a)
    requires PutWith(db, key, val, a).0
    ensures Wf(PutWith(db, key, val, a).1)
    ensures var r := PutWith(db, key, val, a).1;
            var i := Stage(db, key, val, a).slot;
            var at := Loc(a.ptr, db.file.pageSize);
            && 0 <= i < Per(r) && at >= 0
            && HomeSlots(r, key)[i] == a.ptr && r.file.pageSize == db.file.pageSize
            && ReadFlat(r.file, at, |key| + 1) == key + [0]
            && ReadFlat(r.file, at + |key| + 1, |val| + 1) == val + [0]
  {
    var s := Stage(db, key, val, a);
    var r := PutWith(db, key, val, a).1;
    var at := Loc(a.ptr, db.file.pageSize);
    PutResult(db, key, val, a);
    StageWrites(db, key, val, a);
    ReadFlatSame(r.file, s.written, at, |key| + 1);
    ReadFlatSame(r.file, s.written, at + |key| + 1, |val| + 1);
  }

  /** After a successful put, the new record is where a get of its key finds it. */
  lemma PutLeavesFound(db: Db, key: seq<byte>, val: seq<byte>, a: Allocation)
    requires Wf(db) && Granted(|Record(key, val)|, a)
    requires PutWith(db, key, val, a).0
    ensures Wf(PutWith(db, key, val, a).1)
    ensures RecordFound(PutWith(db, key, val, a).1, key, val, Stage(db, key, val, a).slot, Loc(a.ptr, db.file.pageSize))
  {
    PutReadsBack(db, key, val, a);
    PutPassedSlots(db, key, val, a);
  }

  lemma PutWithThenGet(db: Db, key: seq<byte>, val: seq<byte>, a: Allocation)
    requires Wf(db) && Granted(|Record(key, val)|, a)
    requires PutWith(db, key, val, a).0
    ensures Wf(PutWith(db, key, val, a).1)
    ensures Get(PutWith(db, key, val, a).1, key) == Some(val + [0])
  {
    PutLeavesFound(db, key, val, a);
    GetFindsRecord(PutWith(db, key, val, a).1, key, val, Stage(db, key, val, a).slot, Loc(a.ptr, db.file.pageSize));
  }

  /**
    After a successful put of `key`, a get of `key` finds the new record and
    returns the value with its NUL. No assumption about other keys is needed:
    the put probe already stopped at the slot the get probe reaches first.
  */
  lemma PutThenGet(db: Db, key: seq<byte>, val: seq<byte>)
    requires Wf(db) && CanAllocate(db, |Record(key, val)|)
    requires Put(db, key, val).0
    ensures Wf(Put(db, key, val).1)
    ensures Get(Put(db, key, val).1, key) == Some(val + [0])
  {
    PutWithThenGet(db, key, val, Alloc(db, |Record(key, val)|));
  }

  // ---------------------------------------------------------------------------
  // Del

  /** Del keeps the database well formed. */
  lemma DelKeepsWf(db: Db, key: seq<byte>)
    requires Wf(db)
    ensures Wf(Del(db, key).1)
  {
    var i := GetProbe(db, key);
    if i != -1 {
      var home := HomeOf(db, key);
      var p := db.dir[home.0].slots[i];
      assert LiveOffsets(db.dir[home.0].slots);
      var d := Deallocate(db.file.pageCount, db.file.pageSize, db.free, p);
      DeallocateKeepsRanges(db.file.pageCount, db.file.pageSize, db.free, p);
      SlotWriteKeepsWf(db, Grow(db.file, d.1).1, home.0, i, MarkDeleted(p), d.2, db.itemCount - 1);
    }
  }

  /**
    A successful del takes the slot's pointer out of the directory and, when
    it was live, gives its range back to the free list; a del that finds an
    empty slot moves no storage.
  */
  lemma DelAccounts(db: Db, key: seq<byte>)
    requires Wf(db) && Del(db, key).0
    ensures var r := Del(db, key).1;
            var p := HomeSlots(db, key)[GetProbe(db, key)];
            && Live(r.dir) + LiveOf(p) == Live(db.dir)
            && AllSlots(r.free) == AllSlots(db.free) + LiveOf(p)
  {
    var i := GetProbe(db, key);
    var home := HomeOf(db, key);
    var p := HomeSlots(db, key)[i];
    PlaceLive(db.dir, home.0, i, MarkDeleted(p));
    if IsLive(p) {
      DeallocateAddsRange(db.file.pageCount, db.file.pageSize, db.free, p);
    }
  }

  /**
    Del changes no byte that could be read before it and no directory block
    but the key's home block; a successful del changes only the probed slot
    of that block, which becomes a tombstone.
  */
  lemma DelResult(db: Db, key: seq<byte>)
    requires Wf(db)
    ensures Wf(Del(db, key).1)
    ensures var r := Del(db, key).1;
            && r.file.pageSize == db.file.pageSize && r.hashLen == db.hashLen && |r.dir| == |db.dir|
            && (forall i :: ByteAt(r.file, i) == ByteAt(db.file, i))
            && (forall c :: 0 <= c < |db.dir| && c != HomeOf(db, key).0 ==> r.dir[c] == db.dir[c])
    ensures Del(db, key).0 ==>
              var i := GetProbe(db, key);
              0 <= i && HomeSlots(Del(db, key).1, key) == HomeSlots(db, key)[i := MarkDeleted(HomeSlots(db, key)[i])]
  {
    DelKeepsWf(db, key);
    var i := GetProbe(db, key);
    if i != -1 {
      var home := HomeOf(db, key);
      var p := HomeSlots(db, key)[i];
      var d := Deallocate(db.file.pageCount, db.file.pageSize, db.free, p);
      var dir := Place(db.dir, home.0, i, MarkDeleted(p));
      var r := Del(db, key).1;
      assert r == Db(Grow(db.file, d.1).1, dir, d.2, db.hashLen, db.itemCount - 1);
      GrowKeepsBytes(db.file, d.1);
      assert HomeOf(r, key) == home;
      assert dir == db.dir[home.0 := HashBlock(db.dir[home.0].id, db.dir[home.0].slots[i := MarkDeleted(p)])];
    }
  }

  /** The slot holds a record (it is neither empty nor a tombstone) whose key is `key`. */
  predicate HoldsKey(f: File, p: Ptr, key: seq<byte>) {
    !IsEmpty(p) && !IsTombstone(p) && KeyMatches(f, p, key)
  }

  /** The key has at most one record in its home block. */
  predicate StoredOnce(db: Db, key: seq<byte>)
    requires Wf(db)
  {
    var slots := HomeSlots(db, key);
    forall j, k :: 0 <= j < |slots| && 0 <= k < |slots| && HoldsKey(db.file, slots[j], key) && HoldsKey(db.file, slots[k], key)
      ==> j == k
  }

  /** A get finds a record exactly when its probe stops at a slot holding the key. */
  lemma GetSomeIff(db: Db, key: seq<byte>)
    requires Wf(db)
    ensures Get(db, key).Some? <==>
              var i := GetProbe(db, key);
              i != -1 && HoldsKey(db.file, HomeSlots(db, key)[i], key)
  {
    var i := GetProbe(db, key);
    if i != -1 {
      assert Stops(db.file, HomeSlots(db, key)[i], key, false);
    }
  }

  /** With no record of the key in its home block, a get finds nothing. */
  lemma GetNoneWhenAbsent(db: Db, key: seq<byte>)
    requires Wf(db)
    requires var slots := HomeSlots(db, key);
             forall j :: 0 <= j < |slots| ==> !HoldsKey(db.file, slots[j], key)
    ensures Get(db, key).None?
  {
    GetSomeIff(db, key);
  }

  /**
    Once a stored key is deleted, a get of it finds nothing, provided the key
    had a single record in its home block.
  */
  lemma DelThenGet(db: Db, key: seq<byte>)
    requires Wf(db) && Get(db, key).Some? && StoredOnce(db, key)
    ensures Del(db, key).0
    ensures Wf(Del(db, key).1) && Get(Del(db, key).1, key).None?
  {
    var i := GetProbe(db, key);
    var home := HomeOf(db, key);
    var slots := HomeSlots(db, key);
    GetSomeIff(db, key);
    DelKeepsWf(db, key);
    var r := Del(db, key).1;
    var d := Deallocate(db.file.pageCount, db.file.pageSize, db.free, slots[i]);
    ExtendsKeepsBytes(r.file, db.file, db.file.pageCount + d.1);
    var after := HomeSlots(r, key);
    assert after == slots[i := MarkDeleted(slots[i])];
    forall j | 0 <= j < |after|
      ensures !HoldsKey(r.file, after[j], key)
    {
      KeyMatchesSame(r.file, db.file, after[j], key);
    }
    GetNoneWhenAbsent(r, key);
  }

  // ---------------------------------------------------------------------------
  // Other keys

  /** How many bytes from a record slot's position a get of `key` may read: the key and its NUL, or the whole record when longer. */
  function Span(p: Ptr, key: seq<byte>): (n: nat)
    ensures n >= |key| + 1 && n >= p.size
  {
    if p.size < |key| + 1 then |key| + 1 else p.size
  }

  /** `g` and `f` agree on every byte a get of `key` may read through a record slot (neither empty nor a tombstone) of `slots`. */
  predicate SameRecords(g: File, f: File, slots: seq<Ptr>, key: seq<byte>) {
    forall j, i :: 0 <= j < |slots| && !IsEmpty(slots[j]) && !IsTombstone(slots[j])
                   && Loc(slots[j], f.pageSize) <= i < Loc(slots[j], f.pageSize) + Span(slots[j], key)
                   ==> ByteAt(g, i) == ByteAt(f, i)
  }

  /** Reads of a range on which two files agree are equal. */
  lemma ReadFlatSameOn(g: File, f: File, start: nat, n: nat)
    requires forall i :: start <= i < start + n ==> ByteAt(g, i) == ByteAt(f, i)
    ensures ReadFlat(g, start, n) == ReadFlat(f, start, n)
  {
    assert forall i :: 0 <= i < n ==> ReadFlat(g, start, n)[i] == ReadFlat(f, start, n)[i];
  }

  /**
    A get gives the same answer in two states whose home blocks for `key`
    stop its probe at the same slots, with the same pointers there, and
    whose files agree on the records those slots hold.
  */
  lemma GetSameStops(g: Db, db: Db, key: seq<byte>)
    requires Wf(g) && Wf(db) && g.file.pageSize == db.file.pageSize && g.hashLen == db.hashLen
    requires var s := HomeSlots(db, key);
             var gs := g.dir[HomeOf(db, key).0].slots;
             && (forall j :: 0 <= j < |s| ==> Stops(g.file, gs[j], key, false) == Stops(db.file, s[j], key, false))
             && (forall j :: 0 <= j < |s| && Stops(db.file, s[j], key, false) ==> gs[j] == s[j])
             && SameRecords(g.file, db.file, s, key)
    ensures Get(g, key) == Get(db, key)
  {
    var s := HomeSlots(db, key);
    var ps := db.file.pageSize;
    assert HomeOf(g, key) == HomeOf(db, key);
    var gs := HomeSlots(g, key);
    var i := GetProbe(db, key);
    if i == -1 {
      assert GetProbe(g, key) == -1;
    } else {
      ProbeUnique(g.file, gs, HomeOf(db, key).1, key, false, i);
      assert GetProbe(g, key) == i && gs[i] == s[i];
      if s[i].page != 0 {
        var v := AdvToVal(s[i], |key| + 1, ps);
        ReadFlatSameOn(g.file, db.file, Loc(v, ps), if v.size < 0 then 0 else v.size);
      }
    }
  }

  /**
    A get depends only on the key's home block and the bytes its records
    hold: two states with the same header length and page size, the same
    home block for `key`, and files agreeing on those records give the same answer.
  */
  lemma GetSame(g: Db, db: Db, key: seq<byte>)
    requires Wf(g) && Wf(db) && g.file.pageSize == db.file.pageSize && g.hashLen == db.hashLen
    requires g.dir[HomeOf(db, key).0] == db.dir[HomeOf(db, key).0]
    requires SameRecords(g.file, db.file, HomeSlots(db, key), key)
    ensures Get(g, key) == Get(db, key)
  {
    var slots := HomeSlots(db, key);
    var ps := db.file.pageSize;
    assert HomeOf(g, key) == HomeOf(db, key) && HomeSlots(g, key) == slots;
    forall j | 0 <= j < |slots|
      ensures Stops(g.file, slots[j], key, false) == Stops(db.file, slots[j], key, false)
    {
      if !IsEmpty(slots[j]) && !IsTombstone(slots[j]) && Loc(slots[j], ps) >= 0 {
        ReadFlatSameOn(g.file, db.file, Loc(slots[j], ps), |key| + 1);
      }
    }
    GetSameStops(g, db, key);
  }

  /** Deleting a key leaves a get of any key with another home block (possible once the directory has grown) as it was. */
  lemma DelKeepsOtherBlock(db: Db, key: seq<byte>, other: seq<byte>)
    requires Wf(db) && HomeOf(db, other).0 != HomeOf(db, key).0
    ensures Wf(Del(db, key).1) && Get(Del(db, key).1, other) == Get(db, other)
  {
    DelKeepsWf(db, key);
    DelResult(db, key);
    GetSame(Del(db, key).1, db, other);
  }

  /**
    A get finds what it found before when the slot its probe stopped at is
    still there with the same record bytes, and no slot the probe meets
    first stops it now.
  */
  lemma GetSameAt(g: Db, db: Db, key: seq<byte>)
    requires Wf(g) && Wf(db) && g.file.pageSize == db.file.pageSize && g.hashLen == db.hashLen
    requires GetProbe(db, key) != -1
    requires var k := GetProbe(db, key);
             var s := HomeSlots(db, key);
             var gs := g.dir[HomeOf(db, key).0].slots;
             var ps := db.file.pageSize;
             && gs[k] == s[k]
             && (forall i :: Loc(s[k], ps) <= i < Loc(s[k], ps) + Span(s[k], key) ==> ByteAt(g.file, i) == ByteAt(db.file, i))
             && (forall j :: 0 <= j < |gs| && Dist(HomeOf(db, key).1, j, |gs|) < Dist(HomeOf(db, key).1, k, |gs|) ==>
                   !Stops(g.file, gs[j], key, false))
    ensures Get(g, key) == Get(db, key)
  {
    var k := GetProbe(db, key);
    var s := HomeSlots(db, key);
    var ps := db.file.pageSize;
    assert HomeOf(g, key) == HomeOf(db, key);
    var gs := HomeSlots(g, key);
    if !IsEmpty(s[k]) && !IsTombstone(s[k]) && Loc(s[k], ps) >= 0 {
      ReadFlatSameOn(g.file, db.file, Loc(s[k], ps), |key| + 1);
    }
    assert Stops(g.file, gs[k], key, false) == Stops(db.file, s[k], key, false);
    ProbeUnique(g.file, gs, HomeOf(db, key).1, key, false, k);
    assert GetProbe(g, key) == k;
    if s[k].page != 0 {
      var v := AdvToVal(s[k], |key| + 1, ps);
      ReadFlatSameOn(g.file, db.file, Loc(v, ps), if v.size < 0 then 0 else v.size);
    }
  }

  /**
    Deleting a stored key leaves a get of any other key as it was, also when
    both keys share a home block: the tombstone left behind does not stop
    the other key's probe.
  */
  lemma DelKeepsOther(db: Db, key: seq<byte>, other: seq<byte>)
    requires Wf(db) && Get(db, key).Some?
    requires NoNul(key) && NoNul(other) && key != other
    ensures Wf(Del(db, key).1) && Get(Del(db, key).1, other) == Get(db, other)
  {
    DelKeepsWf(db, key);
    if HomeOf(db, other).0 != HomeOf(db, key).0 {
      DelKeepsOtherBlock(db, key, other);
    } else {
      DelSameBlock(db, key, other);
    }
  }

  /** `DelKeepsOther` for two keys with the same home block. */
  lemma DelSameBlock(db: Db, key: seq<byte>, other: seq<byte>)
    requires Wf(db) && Get(db, key).Some?
    requires NoNul(key) && NoNul(other) && key != other
    requires HomeOf(db, other).0 == HomeOf(db, key).0
    ensures Wf(Del(db, key).1) && Get(Del(db, key).1, other) == Get(db, other)
  {
    DelResult(db, key);
    GetSomeIff(db, key);
    var r := Del(db, key).1;
    var i := GetProbe(db, key);
    var s := HomeSlots(db, other);
    assert s == HomeSlots(db, key);
    var gs := r.dir[HomeOf(db, other).0].slots;
    assert gs == s[i := MarkDeleted(s[i])];
    if KeyMatches(db.file, s[i], other) {
      MatchesOneKey(db.file, s[i], key, other);
    }
    forall j | 0 <= j < |s|
      ensures Stops(r.file, gs[j], other, false) == Stops(db.file, s[j], other, false)
    {
      if j != i {
        KeyMatchesSame(r.file, db.file, s[j], other);
      }
    }
    GetSameStops(r, db, other);
  }

  /**
    The put's record range misses every byte a get of `other` may read
    through a record slot of `other`'s home block.
  */
  predicate Misses(db: Db, other: seq<byte>, at: int, n: nat)
    requires Wf(db)
  {
    var slots := HomeSlots(db, other);
    forall j :: 0 <= j < |slots| && !IsEmpty(slots[j]) && !IsTombstone(slots[j]) ==>
      Loc(slots[j], db.file.pageSize) + Span(slots[j], other) <= at || at + n <= Loc(slots[j], db.file.pageSize)
  }

  /**
    Putting a key leaves a get of any key with another home block as it was,
    provided the new record's range misses that key's records.
  */
  lemma PutKeepsOtherBlock(db: Db, key: seq<byte>, val: seq<byte>, a: Allocation, other: seq<byte>)
    requires Wf(db) && Granted(|Record(key, val)|, a) && HomeOf(db, other).0 != HomeOf(db, key).0
    requires Misses(db, other, Loc(a.ptr, db.file.pageSize), |Record(key, val)|)
    ensures Wf(PutWith(db, key, val, a).1) && Get(PutWith(db, key, val, a).1, other) == Get(db, other)
  {
    PutKeepsRecords(db, key, val, a, other);
    if PutWith(db, key, val, a).0 {
      PutResult(db, key, val, a);
    }
    GetSame(PutWith(db, key, val, a).1, db, other);
  }

  /**
    The file after a put, whether or not it finds a slot: every byte outside
    the record's range is as it was, and the key and its NUL read back at
    the start of the range.
  */
  lemma PutFile(db: Db, key: seq<byte>, val: seq<byte>, a: Allocation)
    requires Wf(db) && Granted(|Record(key, val)|, a)
    ensures Wf(PutWith(db, key, val, a).1)
    ensures var r := PutWith(db, key, val, a).1;
            var at := Loc(a.ptr, db.file.pageSize);
            && at >= 0
            && (forall i :: i < at || at + |Record(key, val)| <= i ==> ByteAt(r.file, i) == ByteAt(db.file, i))
            && ReadFlat(r.file, at, |key| + 1) == key + [0]
  {
    var r := PutWith(db, key, val, a).1;
    var w := Stage(db, key, val, a).written;
    var at := Loc(a.ptr, db.file.pageSize);
    PutKeepsWf(db, key, val, a);
    PutKeepsWritten(db, key, val, a);
    StageWrites(db, key, val, a);
    ReadFlatSame(r.file, w, at, |key| + 1);
    StageOutside(db, key, val, a);
  }

  /** The file a put leaves agrees with the file just after the record write on every byte. */
  lemma PutKeepsWritten(db: Db, key: seq<byte>, val: seq<byte>, a: Allocation)
    requires Wf(db) && Granted(|Record(key, val)|, a)
    ensures forall i :: ByteAt(PutWith(db, key, val, a).1.file, i) == ByteAt(Stage(db, key, val, a).written, i)
  {
    var s := Stage(db, key, val, a);
    if s.slot != -1 {
      var r := PutWith(db, key, val, a).1;
      var d := Deallocate(s.written.pageCount, db.file.pageSize, a.free, HomeSlots(db, key)[s.slot]);
      assert r.file == Grow(s.written, d.1).1;
      GrowKeepsBytes(s.written, d.1);
    }
  }

  /** The record write changes no byte outside the record's range. */
  lemma StageOutside(db: Db, key: seq<byte>, val: seq<byte>, a: Allocation)
    requires Wf(db) && Granted(|Record(key, val)|, a)
    ensures var at := Loc(a.ptr, db.file.pageSize);
            forall i :: i < at || at + |Record(key, val)| <= i ==> ByteAt(Stage(db, key, val, a).written, i) == ByteAt(db.file, i)
  {
    var ps := db.file.pageSize;
    var at := Loc(a.ptr, ps);
    var grown := Grow(db.file, a.grown).1;
    GrowKeepsBytes(db.file, a.grown);
    LiveLoc(a.ptr, ps);
    assert Stage(db, key, val, a).written == WriteFlat(grown, at, Record(key, val));
    forall i | i < at || at + |Record(key, val)| <= i
      ensures ByteAt(WriteFlat(grown, at, Record(key, val)), i) == ByteAt(db.file, i)
    {
      WriteFlatOutside(grown, at, Record(key, val), i);
    }
  }

  /**
    Putting a key leaves a get of any other stored key as it was, also when
    both keys share a home block, provided the new record's range misses
    that key's records: the slot the put takes is not the other key's, and
    the record written there does not match the other key.
  */
  lemma PutKeepsOther(db: Db, key: seq<byte>, val: seq<byte>, a: Allocation, other: seq<byte>)
    requires Wf(db) && Granted(|Record(key, val)|, a) && Get(db, other).Some?
    requires NoNul(key) && NoNul(other) && key != other
    requires Misses(db, other, Loc(a.ptr, db.file.pageSize), |Record(key, val)|)
    ensures Wf(PutWith(db, key, val, a).1) && Get(PutWith(db, key, val, a).1, other) == Get(db, other)
  {
    if HomeOf(db, other).0 != HomeOf(db, key).0 {
      PutKeepsOtherBlock(db, key, val, a, other);
    } else {
      PutSameBlock(db, key, val, a, other);
    }
  }

  /** The bytes a get of `other` may read through its home block's records are the same after a put whose range misses them. */
  lemma PutKeepsRecords(db: Db, key: seq<byte>, val: seq<byte>, a: Allocation, other: seq<byte>)
    requires Wf(db) && Granted(|Record(key, val)|, a)
    requires Misses(db, other, Loc(a.ptr, db.file.pageSize), |Record(key, val)|)
    ensures Wf(PutWith(db, key, val, a).1)
    ensures var r := PutWith(db, key, val, a).1;
            var s := HomeSlots(db, other);
            SameRecords(r.file, db.file, s, other)
            && forall j :: 0 <= j < |s| && !IsEmpty(s[j]) && !IsTombstone(s[j]) ==>
                 KeyMatches(r.file, s[j], other) == KeyMatches(db.file, s[j], other)
  {
    PutFile(db, key, val, a);
    var r := PutWith(db, key, val, a).1;
    var ps := db.file.pageSize;
    var at := Loc(a.ptr, ps);
    var n := |Record(key, val)|;
    var s := HomeSlots(db, other);
    forall j | 0 <= j < |s| && !IsEmpty(s[j]) && !IsTombstone(s[j])
      ensures forall i :: Loc(s[j], ps) <= i < Loc(s[j], ps) + Span(s[j], other) ==> ByteAt(r.file, i) == ByteAt(db.file, i)
      ensures KeyMatches(r.file, s[j], other) == KeyMatches(db.file, s[j], other)
    {
      assert Loc(s[j], ps) + Span(s[j], other) <= at || at + n <= Loc(s[j], ps);
      if Loc(s[j], ps) >= 0 {
        ReadFlatSameOn(r.file, db.file, Loc(s[j], ps), |other| + 1);
      }
    }
  }

  /** `PutKeepsOther` for two keys with the same home block. */
  lemma PutSameBlock(db: Db, key: seq<byte>, val: seq<byte>, a: Allocation, other: seq<byte>)
    requires Wf(db) && Granted(|Record(key, val)|, a) && Get(db, other).Some?
    requires NoNul(key) && NoNul(other) && key != other
    requires Misses(db, other, Loc(a.ptr, db.file.pageSize), |Record(key, val)|)
    requires HomeOf(db, other).0 == HomeOf(db, key).0
    ensures Wf(PutWith(db, key, val, a).1) && Get(PutWith(db, key, val, a).1, other) == Get(db, other)
  {
    PutFile(db, key, val, a);
    PutKeepsRecords(db, key, val, a, other);
    GetSomeIff(db, other);
    var r := PutWith(db, key, val, a).1;
    var k := GetProbe(db, other);
    var s := HomeSlots(db, other);
    assert s == HomeSlots(db, key);
    var t := Stage(db, key, val, a).slot;
    var gs := r.dir[HomeOf(db, other).0].slots;
    assert KeyMatches(r.file, a.ptr, key);
    if t == -1 {
      assert gs == s;
    } else {
      PutResult(db, key, val, a);
      assert gs == s[t := a.ptr];
      if t == k {
        KeyMatchesSame(r.file, Stage(db, key, val, a).written, s[k], key);
        MatchesOneKey(r.file, s[k], key, other);
      }
    }
    forall j | 0 <= j < |gs| && Dist(HomeOf(db, other).1, j, |gs|) < Dist(HomeOf(db, other).1, k, |gs|)
      ensures !Stops(r.file, gs[j], other, false)
    {
      if j == t {
        assert gs[j] == a.ptr;
        if KeyMatches(r.file, a.ptr, other) {
          MatchesOneKey(r.file, a.ptr, key, other);
        }
      } else {
        assert gs[j] == s[j] && !Stops(db.file, s[j], other, false);
      }
    }
    GetSameAt(r, db, other);
  }

  // ---------------------------------------------------------------------------
  // Quirks of put and del

  /**
    Del does not check that the key is stored: on a fresh database it stops
    at the key's empty home slot, tombstones it and takes the item count
    below zero, although a get of the key finds nothing.
  */
  lemma DelAbsentOnFresh(pageSize: nat, key: seq<byte>)
    requires ValidPageSize(pageSize)
    ensures Get(Init(pageSize), key).None?
    ensures var r := Del(Init(pageSize), key);
            && r.0 && r.1.itemCount == -1
            && IsTombstone(HomeSlots(r.1, key)[HomeOf(Init(pageSize), key).1])
  {
    var db := Init(pageSize);
    var slots := HomeSlots(db, key);
    var start := HomeOf(db, key).1;
    ProbeUnique(db.file, slots, start, key, false, start);
    GetSomeIff(db, key);
    DelKeepsWf(db, key);
  }

  /**
    The put probe stops at the first tombstone: when the key's home place
    holds one, put writes the new record there even if the key is still
    stored in another slot of the block, and that slot keeps its record.
  */
  lemma PutAtHomeTombstone(db: Db, key: seq<byte>, val: seq<byte>, a: Allocation, j: nat)
    requires Wf(db) && Granted(|Record(key, val)|, a)
    requires IsTombstone(HomeSlots(db, key)[HomeOf(db, key).1])
    requires j < Per(db) && j != HomeOf(db, key).1
    ensures PutWith(db, key, val, a).0 && Stage(db, key, val, a).slot == HomeOf(db, key).1
    ensures var r := PutWith(db, key, val, a).1;
            HomeSlots(r, key)[HomeOf(db, key).1] == a.ptr && HomeSlots(r, key)[j] == HomeSlots(db, key)[j]
  {
    var s := Stage(db, key, val, a);
    var start := HomeOf(db, key).1;
    ProbeUnique(s.written, HomeSlots(db, key), start, key, true, start);
    PutResult(db, key, val, a);
  }

  /**
    A put that finds no slot still leaves its record written at the allocated
    position, and keeps the free list the allocation left: the range is
    neither handed back nor entered in the directory.
  */
  lemma PutFailKeeps(db: Db, key: seq<byte>, val: seq<byte>, a: Allocation)
    requires Wf(db) && Granted(|Record(key, val)|, a)
    requires !PutWith(db, key, val, a).0
    ensures var r := PutWith(db, key, val, a).1;
            var at := Loc(a.ptr, db.file.pageSize);
            && Live(r.dir) == Live(db.dir) && AllSlots(r.free) == AllSlots(a.free)
            && at >= 0
            && ReadFlat(r.file, at, |key| + 1) == key + [0]
            && ReadFlat(r.file, at + |key| + 1, |val| + 1) == val + [0]
  {
    StageWrites(db, key, val, a);
    assert PutWith(db, key, val, a).1.file == Stage(db, key, val, a).written;
  }

  /**
    A failed put leaks its allocation. When the record fitted a free range,
    that range has lost the record's bytes (what is left of it, if anything,
    stays free) while the directory gained nothing; when the file had to grow,
    the free list is as before and the new pages hold the record.
  */
  lemma PutFailLeaks(db: Db, key: seq<byte>, val: seq<byte>)
    requires Wf(db) && CanAllocate(db, |Record(key, val)|)
    requires !Put(db, key, val).0
    ensures var size := |Record(key, val)|;
            var r := Put(db, key, val).1;
            && Live(r.dir) == Live(db.dir) && r.itemCount == db.itemCount
            && (FitsAny(db.free, size) ==>
                  var k := FirstFitBlock(db.free, size);
                  var s := db.free[k].slots[FirstFit(db.free[k].slots, size)];
                  var left := if s.size == size then multiset{} else multiset{Shift(s, size, db.file.pageSize)};
                  AllSlots(r.free) + multiset{s} == AllSlots(db.free) + left)
            && (!FitsAny(db.free, size) ==> r.free == db.free)
  {
    var size := |Record(key, val)|;
    var a := Alloc(db, size);
    PutFailKeeps(db, key, val, a);
    if FitsAny(db.free, size) {
      AllocateCarvesRange(db.file.pageCount, db.file.pageSize, db.free, size);
    }
  }

  // ---------------------------------------------------------------------------
  // Expand

  /** The whole-page ranges of the given hash blocks, as expand frees them. */
  function BlockRanges(blocks: seq<HashBlock>, pageSize: nat): multiset<Ptr>
    decreases |blocks|
  {
    if |blocks| == 0 then multiset{} else LiveOf(Ptr(blocks[0].id, 0, pageSize)) + BlockRanges(blocks[1..], pageSize)
  }

  /**
    The last loop of `database_expand`: each old hash block, in chain order,
    is deallocated as the range `(page, 0, pageSize)`. Returns the pages the
    free list grew by and the free list.
  */
  function FreeOld(pageCount: nat, pageSize: nat, free: seq<FreeBlock>, blocks: seq<HashBlock>): (r: (nat, seq<FreeBlock>))
    requires ValidPageSize(pageSize)
    ensures r.0 <= |blocks|
    decreases |blocks|
  {
    if |blocks| == 0 then (0, free)
    else
      var d := Deallocate(pageCount, pageSize, free, Ptr(blocks[0].id, 0, pageSize));
      var rest := FreeOld(pageCount + d.1, pageSize, d.2, blocks[1..]);
      (d.1 + rest.0, rest.1)
  }

  /**
    `FreeOld` on a non-empty chain: the first block's range is deallocated
    (`d`), then the rest (`tail`) is freed from page count `pc` and list `fr`.
  */
  lemma FreeOldUnfold(pageCount: nat, pageSize: nat, free: seq<FreeBlock>, blocks: seq<HashBlock>,
                      d: (bool, nat, seq<FreeBlock>), pc: nat, fr: seq<FreeBlock>, tail: seq<HashBlock>)
    requires ValidPageSize(pageSize) && |blocks| > 0
    requires d == Deallocate(pageCount, pageSize, free, Ptr(blocks[0].id, 0, pageSize))
    requires pc == pageCount + d.1 && fr == d.2 && tail == blocks[1..]
    ensures FreeOld(pageCount, pageSize, free, blocks).1 == FreeOld(pc, pageSize, fr, tail).1
  {
  }

  /**
    One step of `FreeOld`: if freeing the rest of the chain adds their
    ranges, freeing all of it adds all of them.
  */
  lemma FreeOldStep(pageCount: nat, pageSize: nat, free: seq<FreeBlock>, blocks: seq<HashBlock>,
                    d: (bool, nat, seq<FreeBlock>), pc: nat, fr: seq<FreeBlock>, tail: seq<HashBlock>)
    requires ValidPageSize(pageSize) && |blocks| > 0
    requires d == Deallocate(pageCount, pageSize, free, Ptr(blocks[0].id, 0, pageSize))
    requires pc == pageCount + d.1 && fr == d.2 && tail == blocks[1..]
    requires AllSlots(FreeOld(pc, pageSize, fr, tail).1) == AllSlots(fr) + BlockRanges(tail, pageSize)
    ensures AllSlots(FreeOld(pageCount, pageSize, free, blocks).1) == AllSlots(free) + BlockRanges(blocks, pageSize)
  {
    var p := Ptr(blocks[0].id, 0, pageSize);
    FreeOldUnfold(pageCount, pageSize, free, blocks, d, pc, fr, tail);
    if IsLive(p) {
      DeallocateAddsRange(pageCount, pageSize, free, p);
    }
    assert AllSlots(fr) == AllSlots(free) + LiveOf(p);
    assert BlockRanges(blocks, pageSize) == LiveOf(p) + BlockRanges(tail, pageSize);
    MultisetShift(AllSlots(FreeOld(pc, pageSize, fr, tail).1), AllSlots(fr), AllSlots(free), LiveOf(p), BlockRanges(tail, pageSize));
  }

  /** Freeing the old blocks adds exactly their page ranges to the free list. */
  lemma {:induction false} FreeOldAddsRanges(pageCount: nat, pageSize: nat, free: seq<FreeBlock>, blocks: seq<HashBlock>)
    requires ValidPageSize(pageSize)
    ensures AllSlots(FreeOld(pageCount, pageSize, free, blocks).1) == AllSlots(free) + BlockRanges(blocks, pageSize)
    decreases |blocks|
  {
    if |blocks| > 0 {
      var d := Deallocate(pageCount, pageSize, free, Ptr(blocks[0].id, 0, pageSize));
      var pc: nat, fr, tail := pageCount + d.1, d.2, blocks[1..];
      FreeOldAddsRanges(pc, pageSize, fr, tail);
      FreeOldStep(pageCount, pageSize, free, blocks, d, pc, fr, tail);
    } else {
      assert FreeOld(pageCount, pageSize, free, blocks).1 == free;
      assert BlockRanges(blocks, pageSize) == multiset{};
      assert AllSlots(free) + multiset{} == AllSlots(free);
    }
  }

  /** The page ranges of hash blocks are sound free ranges. */
  lemma {:induction false} BlockRangesOk(blocks: seq<HashBlock>, pageSize: nat)
    ensures RangesOk(BlockRanges(blocks, pageSize))
    decreases |blocks|
  {
    if |blocks| > 0 {
      BlockRangesOk(blocks[1..], pageSize);
      var p := Ptr(blocks[0].id, 0, pageSize);
      forall q | q in BlockRanges(blocks, pageSize)
        ensures IsLive(q) && q.offset >= 0
      {
        if q !in BlockRanges(blocks[1..], pageSize) {
          assert q in LiveOf(p);
        }
      }
    }
  }

  /**
    `database_expand`: build a fresh chain of `|dir| + n` hash blocks on new
    pages, rehash every live slot of the old chain into it (tombstones are
    dropped), make it the directory, free the old blocks' pages and set the
    block count to the new chain's length. The item count is not touched.
  */
  function Expand(db: Db, n: nat): (r: Db)
    requires Wf(db)
    ensures r.hashLen == |r.dir| == |db.dir| + n && r.itemCount == db.itemCount
    ensures r.file.pageSize == db.file.pageSize
  {
    var f1 := Grow(db.file, |db.dir| + n).1;
    var freed := FreeOld(f1.pageCount, db.file.pageSize, db.free, db.dir);
    Db(Grow(f1, freed.0).1, ExpandDir(db, n), freed.1, |db.dir| + n, db.itemCount)
  }

  /**
    The directory `database_expand` builds: a fresh chain of `|dir| + n`
    blocks on the pages from the old page count, into which every slot of the
    old chain, block after block, is rehashed (reading keys from the file
    grown by the new chain).
  */
  function ExpandDir(db: Db, n: nat): (dir: seq<HashBlock>)
    requires Wf(db)
    ensures |dir| == |db.dir| + n
  {
    var per := Per(db);
    var next := |db.dir| + n;
    var made := MakeHashBlocks(db.file.pageCount, next, per);
    SlotsOffsets(db.dir);
    CapacitiesPositive(db.file.pageSize);
    RehashAll(Grow(db.file, next).1, Slots(db.dir), made.1, per)
  }

  /**
    Expand moves every live pointer of the old directory into one formerly
    empty slot of the new one: the live pointers are the same, there are no
    tombstones, and the empty slots are the new capacity less the pointers
    moved. Capacity always suffices, since the new chain is at least as long.
  */
  lemma ExpandMoves(db: Db, n: nat)
    requires Wf(db)
    ensures var r := Expand(db, n);
            && Live(r.dir) == Live(db.dir)
            && NoTombs(r.dir)
            && Empties(r.dir) + |Live(db.dir)| == |r.dir| * Per(db)
            && DirOffsets(r.dir)
            && forall c :: 0 <= c < |r.dir| ==> r.dir[c].id == db.file.pageCount + c
  {
    var per := Per(db);
    var next := |db.dir| + n;
    var made := MakeHashBlocks(db.file.pageCount, next, per);
    var f1 := Grow(db.file, next).1;
    var ps := Slots(db.dir);
    SlotsOffsets(db.dir);
    CapacitiesPositive(db.file.pageSize);
    var dir := RehashAll(f1, ps, made.1, per);
    assert Expand(db, n).dir == ExpandDir(db, n) == dir;
    SlotsCount(db.dir, per);
    MulMono(|db.dir|, next, per);
    RehashFresh(f1, ps, made.1, per, db.file.pageCount);
    LiveOfSlots(db.dir);
  }

  /**
    Rehashing a run of at most `|blank| * per` pointers into fresh blocks `blank`
    places exactly their live pointers, one per formerly empty slot.
  */
  lemma RehashFresh(f: File, ps: seq<Ptr>, blank: seq<HashBlock>, per: nat, first: nat)
    requires per >= 1 && |blank| >= 1 && LiveOffsets(ps) && |ps| <= |blank| * per
    requires blank == FreshBlocks(first, |blank|, per)
    ensures var r := RehashAll(f, ps, blank, per);
            && Live(r) == LiveIn(ps) && NoTombs(r) && DirOffsets(r)
            && Empties(r) + |LiveIn(ps)| == |blank| * per
            && forall c :: 0 <= c < |r| ==> r[c].id == first + c
  {
    FreshCounts(first, |blank|, per);
    LiveInSize(ps);
    assert DirOffsets(blank) by {
      forall c | 0 <= c < |blank|
        ensures LiveOffsets(blank[c].slots)
      {
        assert blank[c].slots == EmptySlots(per);
      }
    }
    RehashAllCounts(f, ps, blank, per);
  }

  /** The free list after expand is the old one plus the old blocks' page ranges. */
  lemma ExpandFreeRanges(db: Db, n: nat)
    requires Wf(db)
    ensures AllSlots(Expand(db, n).free) == AllSlots(db.free) + BlockRanges(db.dir, db.file.pageSize)
  {
    var f1 := Grow(db.file, |db.dir| + n).1;
    var freed := FreeOld(f1.pageCount, db.file.pageSize, db.free, db.dir);
    assert Expand(db, n).free == freed.1;
    FreeOldAddsRanges(f1.pageCount, db.file.pageSize, db.free, db.dir);
  }

  /** Expand only appends zero pages to the file. */
  lemma ExpandKeepsBytes(db: Db, n: nat)
    requires Wf(db)
    ensures var g := Expand(db, n).file;
            && Valid(g) && g.pageCount >= db.file.pageCount
            && forall i :: ByteAt(g, i) == ByteAt(db.file, i)
  {
    var f1 := Grow(db.file, |db.dir| + n).1;
    var freed := FreeOld(f1.pageCount, db.file.pageSize, db.free, db.dir);
    assert Expand(db, n).file == Grow(f1, freed.0).1;
    GrowKeepsBytes(db.file, |db.dir| + n);
    GrowKeepsBytes(f1, freed.0);
  }

  /**
    Expand hands the old blocks' pages to the free list and leaves every
    stored byte as it was (the file only grows by zero pages).
  */
  lemma ExpandFrees(db: Db, n: nat)
    requires Wf(db)
    ensures var r := Expand(db, n);
            && AllSlots(r.free) == AllSlots(db.free) + BlockRanges(db.dir, db.file.pageSize)
            && Valid(r.file) && r.file.pageCount >= db.file.pageCount
            && forall i :: ByteAt(r.file, i) == ByteAt(db.file, i)
  {
    ExpandFreeRanges(db, n);
    ExpandKeepsBytes(db, n);
  }

  /** Expand keeps the database well formed. */
  lemma ExpandKeepsWf(db: Db, n: nat)
    requires Wf(db)
    ensures Wf(Expand(db, n))
  {
    var r := Expand(db, n);
    ExpandMoves(db, n);
    ExpandFrees(db, n);
    BlockRangesOk(db.dir, db.file.pageSize);
    assert RangesOk(AllSlots(r.free));
  }
}

=== FILE: directory.dfy ===
/**
  The hash directory: a chain of hash blocks, each a page holding
  `HashesPerBlock(pageSize)` storage pointers. The chain order is the
  sequence order and each block keeps the page id it lives on; walking the
  chain `n` links (`database_get_hash_block`) is indexing the sequence.

  A key's home is slot `hash % (blocks * per)` of the directory, that is
  block `slot / per`, place `slot % per`. Probing never leaves the home
  block: it scans it cyclically from the home place.
*/
module Directory {
  import opened Bytes
  import opened StoragePtr
  import opened PagedFile
  import opened Multisets
  import Djb2

  datatype HashBlock = HashBlock(id: int, slots: seq<Ptr>)

  /** Every block holds exactly `per` slots. */
  predicate Shaped(dir: seq<HashBlock>, per: nat) {
    forall b :: 0 <= b < |dir| ==> |dir[b].slots| == per
  }

  // ---------------------------------------------------------------------------
  // Home slot

  lemma SlotSplit(slot: nat, blocks: nat, per: nat)
    requires per >= 1 && slot < blocks * per
    ensures slot / per < blocks
  {
    if slot / per >= blocks {
      MulMono(blocks, slot / per, per);
    }
  }

  /**
    The home of a hash in a directory of `blocks` blocks of `per` slots: the
    block index and the place within it, which recombine to `hash % (blocks * per)`.
  */
  function Home(hash: nat, blocks: nat, per: nat): (r: (nat, nat))
    requires blocks >= 1 && per >= 1
    ensures r.0 < blocks && r.1 < per
    ensures r.0 * per + r.1 == hash % (blocks * per)
  {
    MulMono(1, blocks, per);
    var slot := hash % (blocks * per);
    SlotSplit(slot, blocks, per);
    (slot / per, slot % per)
  }

  // ---------------------------------------------------------------------------
  // Scanning

  /** Index of the first `x` in `xs[lo..hi]` with `q(x)`, or -1. */
  function FirstFrom<T>(q: T -> bool, xs: seq<T>, lo: nat, hi: nat): (r: int)
    requires lo <= hi <= |xs|
    ensures r == -1 || lo <= r < hi
    ensures r == -1 ==> forall j :: lo <= j < hi ==> !q(xs[j])
    ensures r != -1 ==> q(xs[r]) && forall j :: lo <= j < r ==> !q(xs[j])
    decreases hi - lo
  {
    if lo == hi then -1
    else if q(xs[lo]) then lo
    else FirstFrom(q, xs, lo + 1, hi)
  }

  /** How many steps forward, wrapping round `n` slots, lead from `start` to `j`. */
  function Dist(start: nat, j: nat, n: nat): int {
    if j >= start then j - start else j + n - start
  }

  /**
    The cyclic scan of one block: the start slot, then the slots from it to
    the end, then those from the beginning up to it. The result is the first
    slot in that order satisfying `q`, and -1 exactly when no slot of the block does.
  */
  function Scan(q: Ptr -> bool, slots: seq<Ptr>, start: nat): (r: int)
    requires start < |slots|
    ensures r == -1 <==> forall j :: 0 <= j < |slots| ==> !q(slots[j])
    ensures r != -1 ==> 0 <= r < |slots| && q(slots[r])
    ensures r != -1 ==> forall j :: 0 <= j < |slots| && Dist(start, j, |slots|) < Dist(start, r, |slots|) ==> !q(slots[j])
  {
    if q(slots[start]) then start
    else
      var a := FirstFrom(q, slots, start, |slots|);
      if a != -1 then a else FirstFrom(q, slots, 0, start)
  }

  // ---------------------------------------------------------------------------
  // Probes

  /**
    `database_compare_key` (through `dbfile_cmp_null` with the key's length
    plus one): the record at `p` begins with `key` followed by a NUL.
  */
  predicate KeyMatches(f: File, p: Ptr, key: seq<byte>) {
    Loc(p, f.pageSize) >= 0 && ReadFlat(f, Loc(p, f.pageSize), |key| + 1) == key + [0]
  }

  /**
    Where `database_hash_and_probe` stops: an empty slot; a tombstone, but only
    when probing for a put; any other slot whose record has the probe key.
  */
  predicate Stops(f: File, p: Ptr, key: seq<byte>, put: bool) {
    if IsEmpty(p) then true
    else if IsTombstone(p) then put
    else KeyMatches(f, p, key)
  }

  /**
    `database_hash_and_probe`: the first slot of the block, cyclically from
    `start`, where the probe stops; -1 (the source's NULL) only when it stops
    at no slot of the block.
  */
  function Probe(f: File, slots: seq<Ptr>, start: nat, key: seq<byte>, put: bool): (r: int)
    requires start < |slots|
    ensures r == -1 <==> forall j :: 0 <= j < |slots| ==> !Stops(f, slots[j], key, put)
    ensures r != -1 ==> 0 <= r < |slots| && Stops(f, slots[r], key, put)
    ensures r != -1 ==> forall j :: 0 <= j < |slots| && Dist(start, j, |slots|) < Dist(start, r, |slots|) ==>
                          !Stops(f, slots[j], key, put)
  {
    Scan(p => Stops(f, p, key, put), slots, start)
  }

  /**
    A record matches at most one C string: two NUL-free keys that both match
    the record at `p` are the same key.
  */
  lemma MatchesOneKey(f: File, p: Ptr, key: seq<byte>, other: seq<byte>)
    requires NoNul(key) && NoNul(other)
    requires KeyMatches(f, p, key) && KeyMatches(f, p, other)
    ensures key == other
  {
    var at := Loc(p, f.pageSize);
    if |key| < |other| {
      assert ReadFlat(f, at, |key| + 1)[|key|] == ByteAt(f, at + |key|) == ReadFlat(f, at, |other| + 1)[|key|];
      assert false;
    } else if |other| < |key| {
      assert ReadFlat(f, at, |other| + 1)[|other|] == ByteAt(f, at + |other|) == ReadFlat(f, at, |key| + 1)[|other|];
      assert false;
    } else {
      assert key + [0] == other + [0];
      assert key == (key + [0])[..|key|];
    }
  }

  /** Files that agree on every byte agree on which records have a key. */
  lemma KeyMatchesSame(g: File, f: File, p: Ptr, key: seq<byte>)
    requires g.pageSize == f.pageSize && forall i :: ByteAt(g, i) == ByteAt(f, i)
    ensures KeyMatches(g, p, key) == KeyMatches(f, p, key)
  {
    if Loc(p, f.pageSize) >= 0 {
      ReadFlatSame(g, f, Loc(p, f.pageSize), |key| + 1);
    }
  }

  /**
    `database_rehash_and_probe`: as `Probe`, but only an empty slot stops it
    (a fresh directory holds no duplicates).
  */
  function RehashProbe(slots: seq<Ptr>, start: nat): (r: int)
    requires start < |slots|
    ensures r == -1 <==> forall j :: 0 <= j < |slots| ==> !IsEmpty(slots[j])
    ensures r != -1 ==> 0 <= r < |slots| && IsEmpty(slots[r])
    ensures r != -1 ==> forall j :: 0 <= j < |slots| && Dist(start, j, |slots|) < Dist(start, r, |slots|) ==>
                          !IsEmpty(slots[j])
  {
    Scan(IsEmpty, slots, start)
  }

  /**
    The fallback loops of put, get and del probe the home block again from
    slot 0: when the probe from the home place found nothing, so does every
    one of them.
  */
  lemma {:induction false} FallbackFindsNothing(f: File, slots: seq<Ptr>, start: nat, key: seq<byte>, put: bool)
    requires start < |slots|
    requires Probe(f, slots, start, key, put) == -1
    ensures Probe(f, slots, 0, key, put) == -1
  {
  }

  /**
    The probe's answer is pinned down by its contract: a slot where it stops,
    with no stopping slot nearer the start, is the slot it returns.
  */
  lemma {:induction false} ProbeUnique(f: File, slots: seq<Ptr>, start: nat, key: seq<byte>, put: bool, j: nat)
    requires start < |slots| && j < |slots|
    requires Stops(f, slots[j], key, put)
    requires forall i :: 0 <= i < |slots| && Dist(start, i, |slots|) < Dist(start, j, |slots|) ==> !Stops(f, slots[i], key, put)
    ensures Probe(f, slots, start, key, put) == j
  {
    var r := Probe(f, slots, start, key, put);
    assert r != -1;
    assert Dist(start, r, |slots|) == Dist(start, j, |slots|) ==> r == j;
  }

  // ---------------------------------------------------------------------------
  // What a directory holds

  /** The pointer itself when it is live; nothing otherwise. */
  function LiveOf(p: Ptr): multiset<Ptr> {
    if IsLive(p) then multiset{p} else multiset{}
  }

  /** The live pointers of a run of slots, with multiplicity. */
  function LiveIn(s: seq<Ptr>): multiset<Ptr>
    decreases |s|
  {
    if |s| == 0 then multiset{} else LiveOf(s[0]) + LiveIn(s[1..])
  }

  /** The number of empty slots in a run of slots. */
  function EmptiesIn(s: seq<Ptr>): nat
    decreases |s|
  {
    if |s| == 0 then 0 else (if IsEmpty(s[0]) then 1 else 0) + EmptiesIn(s[1..])
  }

  /** The live pointers of the whole directory. */
  function Live(dir: seq<HashBlock>): multiset<Ptr>
    decreases |dir|
  {
    if |dir| == 0 then multiset{} else LiveIn(dir[0].slots) + Live(dir[1..])
  }

  /** The number of empty slots of the whole directory. */
  function Empties(dir: seq<HashBlock>): nat
    decreases |dir|
  {
    if |dir| == 0 then 0 else EmptiesIn(dir[0].slots) + Empties(dir[1..])
  }

  /** No slot of the directory is a tombstone. */
  predicate NoTombs(dir: seq<HashBlock>) {
    forall b, j :: 0 <= b < |dir| && 0 <= j < |dir[b].slots| ==> !IsTombstone(dir[b].slots[j])
  }

  /** Every slot of the directory, block after block, each block in slot order. */
  function Slots(dir: seq<HashBlock>): seq<Ptr>
    decreases |dir|
  {
    if |dir| == 0 then [] else dir[0].slots + Slots(dir[1..])
  }

  /** `_write_storage_ptr_hash`: slot `i` of block `b` now holds `p`; the block keeps its page. */
  function Place(dir: seq<HashBlock>, b: nat, i: nat, p: Ptr): (r: seq<HashBlock>)
    requires b < |dir| && i < |dir[b].slots|
    ensures |r| == |dir|
    ensures forall c :: 0 <= c < |dir| ==> r[c].id == dir[c].id && |r[c].slots| == |dir[c].slots|
    ensures r[b].slots[i] == p
    ensures forall c, j :: 0 <= c < |dir| && 0 <= j < |dir[c].slots| && (c != b || j != i) ==>
                             r[c].slots[j] == dir[c].slots[j]
  {
    dir[b := HashBlock(dir[b].id, dir[b].slots[i := p])]
  }

  /** Every live pointer in a run of slots has a non-negative offset. */
  predicate LiveOffsets(s: seq<Ptr>) {
    forall i :: 0 <= i < |s| && IsLive(s[i]) ==> s[i].offset >= 0
  }

  /** Every live pointer of the directory has a non-negative offset. */
  predicate DirOffsets(dir: seq<HashBlock>) {
    forall b :: 0 <= b < |dir| ==> LiveOffsets(dir[b].slots)
  }

  /** Writing a pointer with a sound offset keeps every live offset sound. */
  lemma PlaceOffsets(dir: seq<HashBlock>, b: nat, i: nat, q: Ptr)
    requires b < |dir| && i < |dir[b].slots|
    requires DirOffsets(dir) && (IsLive(q) ==> q.offset >= 0)
    ensures DirOffsets(Place(dir, b, i, q))
  {
    var r := Place(dir, b, i, q);
    forall c | 0 <= c < |r|
      ensures LiveOffsets(r[c].slots)
    {
      assert forall j :: 0 <= j < |r[c].slots| ==> r[c].slots[j] == dir[c].slots[j] || r[c].slots[j] == q;
    }
  }

  /** A block with an empty slot: where the rehash fallback stops. */
  predicate HasEmpty(b: HashBlock) {
    exists j :: 0 <= j < |b.slots| && IsEmpty(b.slots[j])
  }

  /** The home of the key stored where a pointer points, in a directory of `blocks` blocks. */
  function RehashHome(f: File, p: Ptr, blocks: nat, per: nat): (r: (nat, nat))
    requires blocks >= 1 && per >= 1 && IsLive(p) && p.offset >= 0
    ensures r.0 < blocks && r.1 < per
    ensures r.0 * per + r.1 == Djb2.Hash(KeyAt(f, Loc(p, f.pageSize))) % (blocks * per)
  {
    Home(Djb2.Hash(KeyAt(f, Loc(p, f.pageSize))), blocks, per)
  }

  /**
    `database_rehash_into`: a pointer whose page is below 1 is skipped.
    Otherwise its stored key is hashed again (`dbfile_hash_null`) and the
    pointer goes to the first empty slot of its home block, cyclically from
    the home place; failing that, to the first empty slot of the first block
    of the chain that has one. The chain keeps its shape and page ids, and
    only an empty slot ever changes.
  */
  function RehashInto(f: File, p: Ptr, dir: seq<HashBlock>, per: nat): (r: (bool, seq<HashBlock>))
    requires per >= 1 && |dir| >= 1 && Shaped(dir, per)
    requires IsLive(p) ==> p.offset >= 0
    ensures |r.1| == |dir| && Shaped(r.1, per)
    ensures forall c :: 0 <= c < |dir| ==> r.1[c].id == dir[c].id
    ensures !r.0 ==> r.1 == dir
    ensures r.0 ==> IsLive(p)
    ensures forall c, j :: 0 <= c < |dir| && 0 <= j < per ==> r.1[c].slots[j] == dir[c].slots[j] || r.1[c].slots[j] == p
    ensures forall c, j :: 0 <= c < |dir| && 0 <= j < per && r.1[c].slots[j] != dir[c].slots[j] ==> IsEmpty(dir[c].slots[j])
  {
    if p.page < 1 then (false, dir)
    else
      var home := RehashHome(f, p, |dir|, per);
      var i := RehashProbe(dir[home.0].slots, home.1);
      if i != -1 then (true, Place(dir, home.0, i, p))
      else
        var b := FirstFrom(HasEmpty, dir, 0, |dir|);
        if b == -1 then (false, dir)
        else (true, Place(dir, b, RehashProbe(dir[b].slots, 0), p))
  }

  /** Slot `j` is the first empty one met scanning `slots` cyclically from `start`. */
  predicate FirstEmptyFrom(slots: seq<Ptr>, start: nat, j: nat) {
    && j < |slots| && IsEmpty(slots[j])
    && forall i :: 0 <= i < |slots| && Dist(start, i, |slots|) < Dist(start, j, |slots|) ==> !IsEmpty(slots[i])
  }

  /**
    Where rehashing puts a live pointer. It succeeds exactly when some block
    has an empty slot. When its home block has one, the pointer takes the
    first empty slot from the home place; otherwise it takes the first empty
    slot of the first block that has one. Nothing else changes.
  */
  lemma RehashIntoPlaces(f: File, p: Ptr, dir: seq<HashBlock>, per: nat)
    requires per >= 1 && |dir| >= 1 && Shaped(dir, per)
    requires IsLive(p) && p.offset >= 0
    ensures var r := RehashInto(f, p, dir, per);
            var home := RehashHome(f, p, |dir|, per);
            && (r.0 <==> exists c :: 0 <= c < |dir| && HasEmpty(dir[c]))
            && (HasEmpty(dir[home.0]) ==>
                  exists j: nat :: FirstEmptyFrom(dir[home.0].slots, home.1, j) && r.1 == Place(dir, home.0, j, p))
            && (!HasEmpty(dir[home.0]) && r.0 ==>
                  exists c: nat, j: nat :: c < |dir| && (forall d :: 0 <= d < c ==> !HasEmpty(dir[d]))
                                         && FirstEmptyFrom(dir[c].slots, 0, j) && r.1 == Place(dir, c, j, p))
  {
    var home := RehashHome(f, p, |dir|, per);
    var slots := dir[home.0].slots;
    var i := RehashProbe(slots, home.1);
    if i != -1 {
      assert FirstEmptyFrom(slots, home.1, i);
      assert HasEmpty(dir[home.0]);
    } else {
      assert !HasEmpty(dir[home.0]);
      var b := FirstFrom(HasEmpty, dir, 0, |dir|);
      if b != -1 {
        var j := RehashProbe(dir[b].slots, 0);
        assert HasEmpty(dir[b]);
        assert FirstEmptyFrom(dir[b].slots, 0, j);
      }
    }
  }

  /**
    A pointer whose home block is full goes to another block, and the home
    block keeps what it held. A probe of the home block, as get makes, does
    not see it there.
  */
  lemma RehashIntoOverflow(f: File, p: Ptr, dir: seq<HashBlock>, per: nat)
    requires per >= 1 && |dir| >= 1 && Shaped(dir, per)
    requires IsLive(p) && p.offset >= 0
    requires !HasEmpty(dir[RehashHome(f, p, |dir|, per).0])
    ensures var r := RehashInto(f, p, dir, per);
            var h := RehashHome(f, p, |dir|, per).0;
            && r.1[h] == dir[h]
            && (r.0 ==> exists c: nat, j: nat :: c < |dir| && c != h && j < per && r.1 == Place(dir, c, j, p))
  {
    var r := RehashInto(f, p, dir, per);
    var h := RehashHome(f, p, |dir|, per).0;
    forall j | 0 <= j < per
      ensures r.1[h].slots[j] == dir[h].slots[j]
    {
      assert !IsEmpty(dir[h].slots[j]);
    }
    assert r.1[h].slots == dir[h].slots;
    RehashIntoPlaces(f, p, dir, per);
    if r.0 {
      var c: nat, j: nat :| c < |dir| && (forall d :: 0 <= d < c ==> !HasEmpty(dir[d]))
                            && FirstEmptyFrom(dir[c].slots, 0, j) && r.1 == Place(dir, c, j, p);
      assert HasEmpty(dir[c]);
    }
  }

  /**
    The rehash loop of `database_expand`: every pointer of `ps`, in order, is
    rehashed into `dir`; the result of each attempt is not looked at.
  */
  function RehashAll(f: File, ps: seq<Ptr>, dir: seq<HashBlock>, per: nat): (r: seq<HashBlock>)
    requires per >= 1 && |dir| >= 1 && Shaped(dir, per)
    requires LiveOffsets(ps)
    ensures |r| == |dir| && Shaped(r, per)
    ensures forall c :: 0 <= c < |dir| ==> r[c].id == dir[c].id
    decreases |ps|
  {
    if |ps| == 0 then dir
    else RehashAll(f, ps[1..], RehashInto(f, ps[0], dir, per).1, per)
  }

  /** A run of `per` never-used slots, as a fresh zero page holds. */
  function EmptySlots(per: nat): (s: seq<Ptr>)
    ensures |s| == per && forall j :: 0 <= j < per ==> IsEmpty(s[j])
  {
    seq(per, _ => EmptyPtr)
  }

  /** `n` fresh hash blocks on the consecutive pages from `first`, all slots empty. */
  function FreshBlocks(first: nat, n: nat, per: nat): (r: seq<HashBlock>)
    ensures |r| == n && Shaped(r, per) && NoTombs(r)
    ensures forall c :: 0 <= c < n ==> r[c].id == first + c && r[c].slots == EmptySlots(per)
  {
    seq(n, c => HashBlock(first + c, EmptySlots(per)))
  }

  /**
    `database_make_hash_blocks`: grow the file by `n` pages and chain them as
    fresh hash blocks; the first new page (the old page count) heads the new chain.
  */
  function MakeHashBlocks(pageCount: nat, n: nat, per: nat): (r: (nat, seq<HashBlock>))
    requires n >= 1
    ensures r.0 == pageCount && |r.1| == n && Shaped(r.1, per) && NoTombs(r.1)
    ensures forall c :: 0 <= c < n ==> r.1[c].id == pageCount + c && r.1[c].slots == EmptySlots(per)
    ensures Live(r.1) == multiset{} && Empties(r.1) == n * per
  {
    FreshCounts(pageCount, n, per);
    (pageCount, FreshBlocks(pageCount, n, per))
  }

  /**
    The directory after `database_add_hash_block`: `n` fresh hash blocks, on
    the pages from `pageCount`, linked after the last block. Growing the file
    by those `n` pages is the caller's part and is not modelled here, and the
    header's block count is not updated.
  */
  function AddHashBlocks(pageCount: nat, dir: seq<HashBlock>, n: nat, per: nat): (r: seq<HashBlock>)
    ensures |r| == |dir| + n && r[..|dir|] == dir
    ensures Live(r) == Live(dir) && Empties(r) == Empties(dir) + n * per
  {
    FreshCounts(pageCount, n, per);
    LiveAppend(dir, FreshBlocks(pageCount, n, per));
    dir + FreshBlocks(pageCount, n, per)
  }

  // ---------------------------------------------------------------------------
  // Accounting lemmas

  lemma {:induction false} EmptySlotsCounts(per: nat)
    ensures LiveIn(EmptySlots(per)) == multiset{} && EmptiesIn(EmptySlots(per)) == per
    decreases per
  {
    if per > 0 {
      assert EmptySlots(per)[1..] == EmptySlots(per - 1);
      EmptySlotsCounts(per - 1);
    }
  }

  lemma {:induction false} LiveAppend(a: seq<HashBlock>, b: seq<HashBlock>)
    ensures Live(a + b) == Live(a) + Live(b)
    ensures Empties(a + b) == Empties(a) + Empties(b)
    decreases |a|
  {
    if |a| == 0 {
      assert a + b == b;
    } else {
      assert (a + b)[1..] == a[1..] + b;
      LiveAppend(a[1..], b);
    }
  }

  /** Fresh blocks past the first are the fresh blocks from the next page on. */
  lemma FreshTail(first: nat, n: nat, per: nat)
    requires n > 0
    ensures FreshBlocks(first, n, per)[1..] == FreshBlocks(first + 1, n - 1, per)
  {
    var r := FreshBlocks(first, n, per);
    var tail := FreshBlocks(first + 1, n - 1, per);
    forall c | 0 <= c < n - 1
      ensures r[1..][c] == tail[c]
    {
      assert r[c + 1] == HashBlock(first + 1 + c, EmptySlots(per));
    }
  }

  lemma {:induction false} FreshCounts(first: nat, n: nat, per: nat)
    ensures Live(FreshBlocks(first, n, per)) == multiset{}
    ensures Empties(FreshBlocks(first, n, per)) == n * per
    decreases n
  {
    if n > 0 {
      FreshTail(first, n, per);
      FreshCounts(first + 1, n - 1, per);
      EmptySlotsCounts(per);
      assert n * per == per + (n - 1) * per;
    }
  }

  lemma {:induction false} LiveInUpdate(s: seq<Ptr>, i: nat, p: Ptr)
    requires i < |s| && IsEmpty(s[i]) && IsLive(p)
    ensures LiveIn(s[i := p]) == LiveIn(s) + multiset{p}
    ensures EmptiesIn(s[i := p]) + 1 == EmptiesIn(s)
    decreases |s|
  {
    if i > 0 {
      LiveInUpdate(s[1..], i - 1, p);
      assert s[i := p][1..] == s[1..][i - 1 := p];
    } else {
      assert s[i := p][1..] == s[1..];
    }
  }

  lemma {:induction false} LiveUpdate(dir: seq<HashBlock>, b: nat, blk: HashBlock)
    requires b < |dir|
    ensures Live(dir[b := blk]) + LiveIn(dir[b].slots) == Live(dir) + LiveIn(blk.slots)
    ensures Empties(dir[b := blk]) + EmptiesIn(dir[b].slots) == Empties(dir) + EmptiesIn(blk.slots)
    decreases |dir|
  {
    if b > 0 {
      var rest := dir[1..];
      LiveUpdate(rest, b - 1, blk);
      assert dir[b := blk][1..] == rest[b - 1 := blk];
      assert dir[b := blk][0] == dir[0] && rest[b - 1] == dir[b];
      calc {
        Live(dir[b := blk]) + LiveIn(dir[b].slots);
        LiveIn(dir[0].slots) + Live(rest[b - 1 := blk]) + LiveIn(rest[b - 1].slots);
        LiveIn(dir[0].slots) + (Live(rest[b - 1 := blk]) + LiveIn(rest[b - 1].slots));
        LiveIn(dir[0].slots) + (Live(rest) + LiveIn(blk.slots));
        Live(dir) + LiveIn(blk.slots);
      }
    } else {
      assert dir[b := blk][1..] == dir[1..];
    }
  }

  /** Filling an empty slot with a live pointer adds that pointer and uses up one empty slot. */
  lemma {:induction false} PlaceCounts(dir: seq<HashBlock>, b: nat, i: nat, p: Ptr)
    requires b < |dir| && i < |dir[b].slots| && IsEmpty(dir[b].slots[i]) && IsLive(p)
    ensures Live(Place(dir, b, i, p)) == Live(dir) + multiset{p}
    ensures Empties(Place(dir, b, i, p)) + 1 == Empties(dir)
  {
    var s := dir[b].slots;
    var blk := HashBlock(dir[b].id, s[i := p]);
    LiveUpdate(dir, b, blk);
    LiveInUpdate(s, i, p);
    MultisetCancel(Live(Place(dir, b, i, p)), Live(dir) + multiset{p}, LiveIn(s));
  }

  lemma {:induction false} LiveInSet(s: seq<Ptr>, i: nat, q: Ptr)
    requires i < |s|
    ensures LiveIn(s[i := q]) + LiveOf(s[i]) == LiveIn(s) + LiveOf(q)
    decreases |s|
  {
    if i > 0 {
      var t := s[i := q];
      var rest := s[1..];
      LiveInSet(rest, i - 1, q);
      assert t[1..] == rest[i - 1 := q];
      assert t[0] == s[0] && rest[i - 1] == s[i];
      var head := LiveOf(s[0]);
      assert LiveIn(t) == head + LiveIn(rest[i - 1 := q]);
      assert LiveIn(s) == head + LiveIn(rest);
      MultisetShift(LiveIn(t) + LiveOf(s[i]), LiveIn(t), head, LiveIn(rest[i - 1 := q]), LiveOf(s[i]));
      MultisetShift(LiveIn(s) + LiveOf(q), LiveIn(s), head, LiveIn(rest), LiveOf(q));
    } else {
      assert s[i := q][1..] == s[1..];
    }
  }

  /** Overwriting one slot swaps that slot's live pointer for the new one's, whatever either is. */
  lemma {:induction false} PlaceLive(dir: seq<HashBlock>, b: nat, i: nat, q: Ptr)
    requires b < |dir| && i < |dir[b].slots|
    ensures Live(Place(dir, b, i, q)) + LiveOf(dir[b].slots[i]) == Live(dir) + LiveOf(q)
  {
    var s := dir[b].slots;
    var blk := HashBlock(dir[b].id, s[i := q]);
    LiveUpdate(dir, b, blk);
    LiveInSet(s, i, q);
    calc {
      (Live(Place(dir, b, i, q)) + LiveOf(s[i])) + LiveIn(s);
      Live(dir[b := blk]) + LiveIn(s) + LiveOf(s[i]);
      Live(dir) + (LiveIn(s[i := q]) + LiveOf(s[i]));
      (Live(dir) + LiveOf(q)) + LiveIn(s);
    }
    MultisetCancel(Live(Place(dir, b, i, q)) + LiveOf(s[i]), Live(dir) + LiveOf(q), LiveIn(s));
  }

  lemma {:induction false} EmptiesInFound(s: seq<Ptr>)
    requires EmptiesIn(s) >= 1
    ensures exists j :: 0 <= j < |s| && IsEmpty(s[j])
    decreases |s|
  {
    if !IsEmpty(s[0]) {
      EmptiesInFound(s[1..]);
      var j :| 0 <= j < |s[1..]| && IsEmpty(s[1..][j]);
      assert IsEmpty(s[j + 1]);
    }
  }

  /** A directory with an empty slot anywhere has a block with one. */
  lemma {:induction false} EmptiesFound(dir: seq<HashBlock>)
    requires Empties(dir) >= 1
    ensures exists b :: 0 <= b < |dir| && HasEmpty(dir[b])
    decreases |dir|
  {
    if EmptiesIn(dir[0].slots) >= 1 {
      EmptiesInFound(dir[0].slots);
      assert HasEmpty(dir[0]);
    } else {
      EmptiesFound(dir[1..]);
      var b :| 0 <= b < |dir[1..]| && HasEmpty(dir[1..][b]);
      assert HasEmpty(dir[b + 1]);
    }
  }

  /**
    While the directory has an empty slot, rehashing a live pointer always
    succeeds: it adds exactly that pointer and uses up one empty slot. Other
    pointers are skipped. No tombstone is ever written.
  */
  lemma {:induction false} RehashIntoCounts(f: File, p: Ptr, dir: seq<HashBlock>, per: nat)
    requires per >= 1 && |dir| >= 1 && Shaped(dir, per)
    requires IsLive(p) ==> p.offset >= 0 && Empties(dir) >= 1
    ensures var r := RehashInto(f, p, dir, per);
            && (r.0 <==> IsLive(p))
            && (IsLive(p) ==> Live(r.1) == Live(dir) + multiset{p} && Empties(r.1) + 1 == Empties(dir))
  {
    if IsLive(p) {
      var home := RehashHome(f, p, |dir|, per);
      var i := RehashProbe(dir[home.0].slots, home.1);
      if i != -1 {
        PlaceCounts(dir, home.0, i, p);
      } else {
        EmptiesFound(dir);
        var b := FirstFrom(HasEmpty, dir, 0, |dir|);
        PlaceCounts(dir, b, RehashProbe(dir[b].slots, 0), p);
      }
    }
  }

  /** Rehashing writes no tombstone and no live pointer with a negative offset. */
  lemma {:induction false} RehashIntoKeeps(f: File, p: Ptr, dir: seq<HashBlock>, per: nat)
    requires per >= 1 && |dir| >= 1 && Shaped(dir, per)
    requires IsLive(p) ==> p.offset >= 0
    ensures var r := RehashInto(f, p, dir, per);
            && (NoTombs(dir) ==> NoTombs(r.1))
            && (DirOffsets(dir) ==> DirOffsets(r.1))
  {
    var r := RehashInto(f, p, dir, per);
    if r.0 {
      assert forall c, j :: 0 <= c < |dir| && 0 <= j < per ==> r.1[c].slots[j] == dir[c].slots[j] || r.1[c].slots[j] == p;
    }
  }

  /**
    Rehashing a run of pointers into a directory with room for all of them
    adds exactly their live pointers and uses up one empty slot for each.
  */
  lemma {:induction false} RehashAllCounts(f: File, ps: seq<Ptr>, dir: seq<HashBlock>, per: nat)
    requires per >= 1 && |dir| >= 1 && Shaped(dir, per) && LiveOffsets(ps)
    requires |LiveIn(ps)| <= Empties(dir)
    ensures var r := RehashAll(f, ps, dir, per);
            && Live(r) == Live(dir) + LiveIn(ps)
            && Empties(r) + |LiveIn(ps)| == Empties(dir)
            && (NoTombs(dir) ==> NoTombs(r))
            && (DirOffsets(dir) ==> DirOffsets(r))
    decreases |ps|
  {
    if |ps| > 0 {
      var x := RehashInto(f, ps[0], dir, per);
      var rest := ps[1..];
      RehashIntoCounts(f, ps[0], dir, per);
      RehashIntoKeeps(f, ps[0], dir, per);
      RehashAllCounts(f, rest, x.1, per);
    }
  }

  lemma {:induction false} LiveInConcat(a: seq<Ptr>, b: seq<Ptr>)
    ensures LiveIn(a + b) == LiveIn(a) + LiveIn(b)
    decreases |a|
  {
    if |a| == 0 {
      assert a + b == b;
    } else {
      assert (a + b)[1..] == a[1..] + b;
      LiveInConcat(a[1..], b);
    }
  }

  /** The live pointers of the slots, block after block, are those of the directory. */
  lemma {:induction false} LiveOfSlots(dir: seq<HashBlock>)
    ensures LiveIn(Slots(dir)) == Live(dir)
    decreases |dir|
  {
    if |dir| > 0 {
      LiveInConcat(dir[0].slots, Slots(dir[1..]));
      LiveOfSlots(dir[1..]);
    }
  }

  lemma {:induction false} LiveInSize(s: seq<Ptr>)
    ensures |LiveIn(s)| <= |s|
    decreases |s|
  {
    if |s| > 0 {
      LiveInSize(s[1..]);
    }
  }

  /** A directory of `per`-slot blocks has `|dir| * per` slots. */
  lemma {:induction false} SlotsCount(dir: seq<HashBlock>, per: nat)
    requires Shaped(dir, per)
    ensures |Slots(dir)| == |dir| * per
    decreases |dir|
  {
    if |dir| > 0 {
      SlotsCount(dir[1..], per);
      assert |dir| * per == per + (|dir| - 1) * per;
    }
  }

  lemma {:induction false} SlotsOffsets(dir: seq<HashBlock>)
    requires DirOffsets(dir)
    ensures LiveOffsets(Slots(dir))
    decreases |dir|
  {
    if |dir| > 0 {
      SlotsOffsets(dir[1..]);
      var a := dir[0].slots;
      var b := Slots(dir[1..]);
      assert LiveOffsets(a);
      assert forall i :: |a| <= i < |a + b| ==> (a + b)[i] == b[i - |a|];
    }
  }
}

=== FILE: djb2.dfy ===
/**
  The djb2 string hash used to place keys in the directory
  (`hash_djb2` and its chunked variant `hash_djb2_n`).
  The running hash is a `size_t`, so every step is taken modulo 2^64,
  and each byte is read through a (signed) `char`.
*/
module Djb2 {
  import opened Bytes

  /** The seed `DJB2_HASH_BASE`. */
  const Base: nat := 5381

  /** 2^64: the range of `size_t`. */
  const WordModulus: nat := 0x1_0000_0000_0000_0000

  /** One step `hash = (hash << 5) + hash + c` in `size_t` arithmetic. */
  function Step(h: nat, c: byte): (r: nat)
    ensures r < WordModulus
  {
    (h * 33 + SignedChar(c)) % WordModulus
  }

  /** Hash the bytes of `s` up to (not including) its first NUL, starting from `h`. */
  function HashFrom(h: nat, s: seq<byte>): nat
    decreases |s|
  {
    if |s| == 0 || s[0] == 0 then h else HashFrom(Step(h, s[0]), s[1..])
  }

  /** `hash_djb2`: the hash of a NUL-terminated string. */
  function Hash(s: seq<byte>): nat {
    HashFrom(Base, s)
  }

  /**
    `hash_djb2_n`: hash at most `n` bytes of `s`, threading the running hash `h`.
    The flag is the C return value `c == 0`: whether a NUL stopped the scan.
  */
  function HashN(s: seq<byte>, n: nat, h: nat): (r: (bool, nat))
    requires 1 <= n <= |s|
    ensures r.0 <==> exists i :: 0 <= i < n && s[i] == 0
    ensures !r.0 ==> r.1 == HashFrom(h, s[..n])
    ensures r.0 ==> r.1 == HashFrom(h, s)
    decreases n
  {
    if s[0] == 0 then (true, h)
    else if n == 1 then (false, Step(h, s[0]))
    else
      var r := HashN(s[1..], n - 1, Step(h, s[0]));
      assert s[1..][..n - 1] == s[..n][1..];
      assert forall i :: 0 <= i < n - 1 ==> s[1..][i] == s[i + 1];
      r
  }

  /** Hashing a NUL-free prefix and then the rest equals hashing the whole. */
  lemma {:induction false} HashFromAppend(h: nat, a: seq<byte>, b: seq<byte>)
    requires NoNul(a)
    ensures HashFrom(h, a + b) == HashFrom(HashFrom(h, a), b)
    decreases |a|
  {
    if |a| > 0 {
      assert (a + b)[1..] == a[1..] + b;
      HashFromAppend(Step(h, a[0]), a[1..], b);
    } else {
      assert a + b == b;
    }
  }

  /**
    Hashing in consecutive chunks with `HashN`, threading the running hash,
    equals hashing the whole string: either the chunk held the NUL and its
    hash is final, or hashing continues from the chunk's hash on the rest.
  */
  lemma ChunkedHash(h: nat, s: seq<byte>, n: nat)
    requires 1 <= n <= |s|
    ensures var r := HashN(s, n, h);
            HashFrom(h, s) == (if r.0 then r.1 else HashFrom(r.1, s[n..]))
  {
    var r := HashN(s, n, h);
    if !r.0 {
      assert NoNul(s[..n]);
      HashFromAppend(h, s[..n], s[n..]);
      assert s[..n] + s[n..] == s;
    }
  }

  /** A string hashed as a C string: its body followed by the terminator. */
  lemma HashOfTerminated(k: seq<byte>)
    requires NoNul(k)
    ensures Hash(k + [0]) == Hash(k)
  {
    HashFromAppend(Base, k, [0]);
    HashFromAppend(Base, k, []);
    assert k + [] == k;
  }
}

=== FILE: free_list.dfy ===
/**
  The free-space allocator: a chain of free blocks, each a page holding a
  count and up to `ItemsPerBlock` free ranges as storage pointers. The chain
  order is the sequence order; each block keeps the page id it lives on.

  Allocation is first-fit over the chain (block by block, slot by slot) and
  carves from the front of the range it finds. When nothing fits, the file
  grows by `size / pageSize + 1` pages and the new range is recorded with the
  requested size; the retried search then takes exactly that range.

  The allocator only needs to know how many pages the file has: growth is
  reported as a number of pages appended, and the database layer grows the
  file by that many zero pages.
*/
module FreeList {
  import opened StoragePtr
  import opened Multisets

  datatype FreeBlock = FreeBlock(id: int, slots: seq<Ptr>)

  /** A block has a range of at least `minSize` bytes. */
  predicate Fits(b: FreeBlock, minSize: int) {
    exists j :: 0 <= j < |b.slots| && b.slots[j].size >= minSize
  }

  /** Some block of the chain has a range of at least `minSize` bytes. */
  predicate FitsAny(free: seq<FreeBlock>, minSize: int) {
    exists k :: 0 <= k < |free| && Fits(free[k], minSize)
  }

  /** All free ranges recorded in the chain, with multiplicity. */
  function AllSlots(free: seq<FreeBlock>): multiset<Ptr> {
    if |free| == 0 then multiset{} else multiset(free[0].slots) + AllSlots(free[1..])
  }

  /** Index of the first range of at least `minSize` bytes, or -1. */
  function FirstFit(slots: seq<Ptr>, minSize: int): (i: int)
    ensures -1 <= i < |slots|
    ensures i == -1 <==> forall j :: 0 <= j < |slots| ==> slots[j].size < minSize
    ensures i >= 0 ==> slots[i].size >= minSize && forall j :: 0 <= j < i ==> slots[j].size < minSize
  {
    if |slots| == 0 then -1
    else if slots[0].size >= minSize then 0
    else
      var k := FirstFit(slots[1..], minSize);
      assert forall j :: 1 <= j < |slots| ==> slots[j] == slots[1..][j - 1];
      if k == -1 then -1 else k + 1
  }

  /** Index of the first block that has a fitting range, or -1. */
  function FirstFitBlock(free: seq<FreeBlock>, minSize: int): (k: int)
    ensures -1 <= k < |free|
    ensures k == -1 <==> !FitsAny(free, minSize)
    ensures k >= 0 ==> Fits(free[k], minSize) && forall m :: 0 <= m < k ==> !Fits(free[m], minSize)
  {
    if |free| == 0 then -1
    else if Fits(free[0], minSize) then 0
    else
      var k := FirstFitBlock(free[1..], minSize);
      assert forall m :: 1 <= m < |free| ==> free[m] == free[1..][m - 1];
      if k == -1 then -1 else k + 1
  }

  /**
    `database_find_space_ptr`: first-fit within one block. On success the
    result is `(page, offset, minSize)` of the first fitting range, that range
    is shifted past the carved bytes, and it is removed (later ranges keep
    their order) when nothing is left of it. On failure the block is unchanged.
  */
  function FindSpacePtr(slots: seq<Ptr>, minSize: nat, pageSize: nat): (r: (int, Ptr, seq<Ptr>))
    requires pageSize > 0
    ensures r.0 == FirstFit(slots, minSize)
    ensures r.0 == -1 ==> r.2 == slots
    ensures r.0 >= 0 ==> r.1 == Ptr(slots[r.0].page, slots[r.0].offset, minSize)
    ensures r.0 >= 0 && slots[r.0].size == minSize ==> r.2 == slots[..r.0] + slots[r.0 + 1..]
    ensures r.0 >= 0 && slots[r.0].size != minSize ==> r.2 == slots[r.0 := Shift(slots[r.0], minSize, pageSize)]
  {
    var i := FirstFit(slots, minSize);
    if i == -1 then (-1, EmptyPtr, slots)
    else
      var s := slots[i];
      var shifted := Shift(s, minSize, pageSize);
      var rest := if shifted.size == 0 then slots[..i] + slots[i + 1..] else slots[i := shifted];
      (i, Ptr(s.page, s.offset, minSize), rest)
  }

  /**
    `database_find_space_storage`: first-fit over the chain. Exactly the first
    block with a fitting range is carved (as by `FindSpacePtr`); the others and
    the chain's length and page ids stay as they were. Nothing changes on failure.
  */
  function FindSpaceStorage(free: seq<FreeBlock>, minSize: nat, pageSize: nat): (r: (bool, Ptr, seq<FreeBlock>))
    requires pageSize > 0
    ensures r.0 <==> FitsAny(free, minSize)
    ensures !r.0 ==> r.2 == free
    ensures r.0 ==> var k := FirstFitBlock(free, minSize);
                    var x := FindSpacePtr(free[k].slots, minSize, pageSize);
                    && r.1 == x.1
                    && r.2 == free[k := FreeBlock(free[k].id, x.2)]
  {
    if |free| == 0 then (false, EmptyPtr, free)
    else
      var x := FindSpacePtr(free[0].slots, minSize, pageSize);
      if x.0 != -1 then
        assert free[0].slots[x.0].size >= minSize;
        (true, x.1, free[0 := FreeBlock(free[0].id, x.2)])
      else
        var rest := FindSpaceStorage(free[1..], minSize, pageSize);
        FirstFitBlockTail(free, minSize);
        if rest.0 then
          var k := FirstFitBlock(free[1..], minSize);
          ConsUpdate(free, k, FreeBlock(free[1..][k].id, FindSpacePtr(free[1..][k].slots, minSize, pageSize).2));
          (rest.0, rest.1, [free[0]] + rest.2)
        else
          (rest.0, rest.1, [free[0]] + rest.2)
  }

  /** A first block without a fitting range is skipped: the search continues in the rest of the chain. */
  lemma FirstFitBlockTail(free: seq<FreeBlock>, minSize: int)
    requires |free| > 0 && FirstFit(free[0].slots, minSize) == -1
    ensures FitsAny(free, minSize) <==> FitsAny(free[1..], minSize)
    ensures FitsAny(free, minSize) ==> FirstFitBlock(free, minSize) == FirstFitBlock(free[1..], minSize) + 1
  {
    assert !Fits(free[0], minSize);
    assert forall m :: 1 <= m < |free| ==> free[m] == free[1..][m - 1];
    if FitsAny(free[1..], minSize) {
      var m :| 0 <= m < |free[1..]| && Fits(free[1..][m], minSize);
      assert Fits(free[m + 1], minSize);
    }
  }

  lemma ConsUpdate(free: seq<FreeBlock>, k: nat, b: FreeBlock)
    requires k + 1 < |free|
    ensures [free[0]] + free[1..][k := b] == free[k + 1 := b]
  {
  }

  /** `database_find_space_block`: index of the first block with room for another range, or -1. */
  function FindSpaceBlock(free: seq<FreeBlock>, perBlock: nat): (k: int)
    ensures -1 <= k < |free|
    ensures k == -1 <==> forall m :: 0 <= m < |free| ==> |free[m].slots| >= perBlock
    ensures k >= 0 ==> |free[k].slots| < perBlock && forall m :: 0 <= m < k ==> |free[m].slots| >= perBlock
  {
    if |free| == 0 then -1
    else if |free[0].slots| < perBlock then 0
    else
      var k := FindSpaceBlock(free[1..], perBlock);
      assert forall m :: 1 <= m < |free| ==> free[m] == free[1..][m - 1];
      if k == -1 then -1 else k + 1
  }

  /** `database_place_ptr_in_len_block`: the range goes in at index `count`, and the count rises by one. */
  function PlacePtr(b: FreeBlock, p: Ptr): (r: FreeBlock)
    ensures r.id == b.id && |r.slots| == |b.slots| + 1
    ensures r.slots[..|b.slots|] == b.slots && r.slots[|b.slots|] == p
  {
    FreeBlock(b.id, b.slots + [p])
  }

  /**
    `database_add_space_block`: the file grows by one page, which becomes a
    fresh, empty free block linked at the end of the chain. The result is the
    new page id, which is the old page count.
  */
  function AddSpaceBlock(pageCount: nat, free: seq<FreeBlock>): (r: (nat, seq<FreeBlock>))
    ensures r.0 == pageCount
    ensures |r.1| == |free| + 1 && r.1[..|free|] == free && r.1[|free|] == FreeBlock(pageCount, [])
  {
    (pageCount, free + [FreeBlock(pageCount, [])])
  }

  /**
    `database_add_storage_blocks`: grow by `size / pageSize + 1` pages and
    record the range `(first new page, 0, size)` in the first block with room.
    The source reads the block that search returns without checking it, so a
    chain with room is required. The result is the first new page and the
    number of pages appended.
  */
  function AddStorageBlocks(pageCount: nat, pageSize: nat, free: seq<FreeBlock>, size: nat): (r: (nat, nat, seq<FreeBlock>))
    requires ValidPageSize(pageSize)
    requires FindSpaceBlock(free, ItemsPerBlock(pageSize)) != -1
    ensures r.0 == pageCount && r.1 == size / pageSize + 1
    ensures r.1 >= 1 && r.1 * pageSize > size
    ensures var k := FindSpaceBlock(free, ItemsPerBlock(pageSize));
            r.2 == free[k := PlacePtr(free[k], Ptr(pageCount, 0, size))]
  {
    GrowthCovers(size, pageSize);
    var grown: nat := size / pageSize + 1;
    var k := FindSpaceBlock(free, ItemsPerBlock(pageSize));
    (pageCount, grown, free[k := PlacePtr(free[k], Ptr(pageCount, 0, size))])
  }

  /** `size / pageSize + 1` whole pages always hold `size` bytes. */
  lemma GrowthCovers(size: nat, pageSize: nat)
    requires pageSize > 0
    ensures size / pageSize >= 0
    ensures (size / pageSize + 1) * pageSize > size
  {
    var q := size / pageSize;
    assert size == q * pageSize + size % pageSize;
    assert (q + 1) * pageSize == q * pageSize + pageSize;
  }

  /**
    What `database_allocate_storage` leaves: whether it grew, the pointer, the
    number of pages appended to the file and the new chain.
  */
  datatype Allocation = Allocation(grew: bool, ptr: Ptr, grown: nat, free: seq<FreeBlock>)

  /**
    The retried search after `AddStorageBlocks` finds exactly the recorded range,
    and carving all of it removes it again: the chain comes back unchanged.
  */
  lemma RetryTakesNewRange(free: seq<FreeBlock>, k: nat, p: Ptr, pageSize: nat)
    requires pageSize > 0 && p.size >= 0
    requires !FitsAny(free, p.size) && k < |free|
    ensures var free1 := free[k := PlacePtr(free[k], p)];
            var r := FindSpaceStorage(free1, p.size, pageSize);
            r.0 && r.1 == p && r.2 == free
  {
    var free1 := free[k := PlacePtr(free[k], p)];
    var b := free1[k];
    assert b.slots[|free[k].slots|] == p;
    assert Fits(b, p.size);
    assert FitsAny(free1, p.size);
    var kk := FirstFitBlock(free1, p.size);
    forall m | 0 <= m < k
      ensures !Fits(free1[m], p.size)
    {
      assert free1[m] == free[m];
      assert !Fits(free[m], p.size);
    }
    assert kk == k;
    var i := FirstFit(b.slots, p.size);
    forall j | 0 <= j < |free[k].slots|
      ensures b.slots[j].size < p.size
    {
      assert b.slots[j] == free[k].slots[j];
      assert !Fits(free[k], p.size);
    }
    assert i == |free[k].slots|;
    var x := FindSpacePtr(b.slots, p.size, pageSize);
    assert x.2 == b.slots[..i] + b.slots[i + 1..];
    assert b.slots[..i] == free[k].slots;
    assert x.2 == free[k].slots;
    assert free1[k := FreeBlock(b.id, x.2)] == free;
  }

  /**
    `database_allocate_storage`: first-fit from the chain; when nothing fits,
    grow once (`AddStorageBlocks`) and take the range just recorded. The
    pointer always has exactly the requested size. Without growth nothing is
    appended and the pointer starts where the first fitting range starts; with
    growth the pointer is `(old page count, 0, size)`, the appended pages hold
    all of it, and the chain is as before.
  */
  function Allocate(pageCount: nat, pageSize: nat, free: seq<FreeBlock>, size: nat): (r: Allocation)
    requires ValidPageSize(pageSize)
    requires FitsAny(free, size) || FindSpaceBlock(free, ItemsPerBlock(pageSize)) != -1
    ensures r.ptr.size == size
    ensures r.grew <==> !FitsAny(free, size)
    ensures !r.grew ==> r.grown == 0
    ensures !r.grew ==> var k := FirstFitBlock(free, size);
                        var s := free[k].slots[FirstFit(free[k].slots, size)];
                        r.ptr == Ptr(s.page, s.offset, size)
    ensures r.grew ==> r.ptr == Ptr(pageCount, 0, size) && r.free == free
    ensures r.grew ==> r.grown == size / pageSize + 1
    ensures r.grew ==> r.grown >= 1 && r.grown * pageSize > size
  {
    var x := FindSpaceStorage(free, size, pageSize);
    if x.0 then Allocation(false, x.1, 0, x.2)
    else
      var added := AddStorageBlocks(pageCount, pageSize, free, size);
      var k := FindSpaceBlock(free, ItemsPerBlock(pageSize));
      RetryTakesNewRange(free, k, Ptr(pageCount, 0, size), pageSize);
      var y := FindSpaceStorage(added.2, size, pageSize);
      Allocation(true, y.1, added.1, y.2)
  }

  /**
    `database_deallocate_storage`: a pointer whose page is not positive is
    ignored. Otherwise the range is appended to the first block with room,
    after linking a fresh block (one appended page) at the end of the chain
    when every block is full. The result says whether the range was recorded
    and how many pages were appended.
  */
  function Deallocate(pageCount: nat, pageSize: nat, free: seq<FreeBlock>, p: Ptr): (r: (bool, nat, seq<FreeBlock>))
    requires ValidPageSize(pageSize)
    ensures r.0 <==> IsLive(p)
    ensures !IsLive(p) ==> r.1 == 0 && r.2 == free
    ensures IsLive(p) && FindSpaceBlock(free, ItemsPerBlock(pageSize)) != -1 ==>
              var k := FindSpaceBlock(free, ItemsPerBlock(pageSize));
              r.1 == 0 && r.2 == free[k := PlacePtr(free[k], p)]
    ensures IsLive(p) && FindSpaceBlock(free, ItemsPerBlock(pageSize)) == -1 ==>
              r.1 == 1 && r.2 == free + [FreeBlock(pageCount, [p])]
  {
    if p.page <= 0 then (false, 0, free)
    else
      var k := FindSpaceBlock(free, ItemsPerBlock(pageSize));
      if k != -1 then (true, 0, free[k := PlacePtr(free[k], p)])
      else
        var added := AddSpaceBlock(pageCount, free);
        var n := |free|;
        assert added.1[n := PlacePtr(added.1[n], p)] == free + [FreeBlock(pageCount, [p])];
        (true, 1, added.1[n := PlacePtr(added.1[n], p)])
  }

  // ---------------------------------------------------------------------------
  // The free ranges as a whole

  lemma {:induction false} AllSlotsUpdate(free: seq<FreeBlock>, k: nat, b: FreeBlock)
    requires k < |free|
    ensures AllSlots(free[k := b]) + multiset(free[k].slots) == AllSlots(free) + multiset(b.slots)
    decreases |free|
  {
    if k > 0 {
      var rest := free[1..];
      AllSlotsUpdate(rest, k - 1, b);
      assert free[k := b][1..] == rest[k - 1 := b];
      assert free[k := b][0] == free[0] && rest[k - 1] == free[k];
      calc {
        AllSlots(free[k := b]) + multiset(free[k].slots);
        multiset(free[0].slots) + AllSlots(rest[k - 1 := b]) + multiset(rest[k - 1].slots);
        multiset(free[0].slots) + (AllSlots(rest[k - 1 := b]) + multiset(rest[k - 1].slots));
        multiset(free[0].slots) + (AllSlots(rest) + multiset(b.slots));
        AllSlots(free) + multiset(b.slots);
      }
    } else {
      assert free[k := b][1..] == free[1..];
    }
  }

  lemma {:induction false} AllSlotsAppend(free: seq<FreeBlock>, b: FreeBlock)
    ensures AllSlots(free + [b]) == AllSlots(free) + multiset(b.slots)
    decreases |free|
  {
    if |free| == 0 {
      assert AllSlots([b][1..]) == multiset{};
    } else {
      assert (free + [b])[1..] == free[1..] + [b];
      AllSlotsAppend(free[1..], b);
    }
  }

  /** Placing a range in block `k` adds exactly that range to the free ranges. */
  lemma AllSlotsPlace(free: seq<FreeBlock>, k: nat, p: Ptr)
    requires k < |free|
    ensures AllSlots(free[k := PlacePtr(free[k], p)]) == AllSlots(free) + multiset{p}
  {
    var m := multiset(free[k].slots);
    AllSlotsUpdate(free, k, PlacePtr(free[k], p));
    assert multiset(PlacePtr(free[k], p).slots) == m + multiset{p};
    MultisetCancel(AllSlots(free[k := PlacePtr(free[k], p)]), AllSlots(free) + multiset{p}, m);
  }

  /** Deallocating a live pointer adds exactly that range to the free ranges; nothing else changes. */
  lemma DeallocateAddsRange(pageCount: nat, pageSize: nat, free: seq<FreeBlock>, p: Ptr)
    requires ValidPageSize(pageSize) && IsLive(p)
    ensures AllSlots(Deallocate(pageCount, pageSize, free, p).2) == AllSlots(free) + multiset{p}
  {
    var k := FindSpaceBlock(free, ItemsPerBlock(pageSize));
    if k != -1 {
      AllSlotsPlace(free, k, p);
    } else {
      AllSlotsAppend(free, FreeBlock(pageCount, [p]));
    }
  }

  /** Carving `size` bytes from the first fitting range, as `FindSpacePtr` leaves the block. */
  lemma CarveSlots(slots: seq<Ptr>, size: nat, pageSize: nat)
    requires pageSize > 0 && FirstFit(slots, size) >= 0
    ensures var s := slots[FirstFit(slots, size)];
            var rest := FindSpacePtr(slots, size, pageSize).2;
            && (s.size == size ==> multiset(rest) + multiset{s} == multiset(slots))
            && (s.size != size ==> multiset(rest) + multiset{s} == multiset(slots) + multiset{Shift(s, size, pageSize)})
  {
    var i := FirstFit(slots, size);
    if slots[i].size == size {
      MultisetRemove(slots, i);
    } else {
      MultisetReplace(slots, i, Shift(slots[i], size, pageSize));
    }
  }

  /**
    The chain search takes the first fitting range `s` out of the free ranges
    and puts back what is left of it, unless nothing is left.
  */
  lemma FindSpaceCarves(free: seq<FreeBlock>, size: nat, pageSize: nat)
    requires pageSize > 0 && FitsAny(free, size)
    ensures var k := FirstFitBlock(free, size);
            var s := free[k].slots[FirstFit(free[k].slots, size)];
            var left := if s.size == size then multiset{} else multiset{Shift(s, size, pageSize)};
            AllSlots(FindSpaceStorage(free, size, pageSize).2) + multiset{s} == AllSlots(free) + left
  {
    var k := FirstFitBlock(free, size);
    var slots := free[k].slots;
    var s := slots[FirstFit(slots, size)];
    var left := if s.size == size then multiset{} else multiset{Shift(s, size, pageSize)};
    var x := FindSpacePtr(slots, size, pageSize);
    var after := AllSlots(free[k := FreeBlock(free[k].id, x.2)]);
    var m := multiset(slots);
    AllSlotsUpdate(free, k, FreeBlock(free[k].id, x.2));
    CarveSlots(slots, size, pageSize);
    assert multiset(x.2) + multiset{s} == m + left;
    calc {
      (after + multiset{s}) + m;
      (after + m) + multiset{s};
      (AllSlots(free) + multiset(x.2)) + multiset{s};
      AllSlots(free) + (multiset(x.2) + multiset{s});
      (AllSlots(free) + left) + m;
    }
    MultisetCancel(after + multiset{s}, AllSlots(free) + left, m);
  }

  /**
    Allocating without growth takes the first fitting range `s` out of the
    free ranges and puts back what is left of it, unless nothing is left; the
    pointer handed out is the carved front of `s`.
  */
  lemma AllocateCarvesRange(pageCount: nat, pageSize: nat, free: seq<FreeBlock>, size: nat)
    requires ValidPageSize(pageSize) && FitsAny(free, size)
    ensures var r := Allocate(pageCount, pageSize, free, size);
            var k := FirstFitBlock(free, size);
            var s := free[k].slots[FirstFit(free[k].slots, size)];
            var left := if s.size == size then multiset{} else multiset{Shift(s, size, pageSize)};
            && s.size >= size
            && r.ptr == Ptr(s.page, s.offset, size)
            && AllSlots(r.free) + multiset{s} == AllSlots(free) + left
  {
    FindSpaceCarves(free, size, pageSize);
  }

  /** A 200-byte range at (66, 102) yields (66, 102, 32) and keeps 168 bytes from offset 134. */
  lemma FindSpacePtrExample()
    ensures FindSpacePtr([Ptr(66, 102, 200)], 32, 4096) == (0, Ptr(66, 102, 32), [Ptr(66, 134, 168)])
  {
    var slots := [Ptr(66, 102, 200)];
    assert FirstFit(slots, 32) == 0;
    assert Shift(slots[0], 32, 4096) == Ptr(66, 134, 168);
    assert slots[0 := Ptr(66, 134, 168)] == [Ptr(66, 134, 168)];
  }

  /** A range carved to nothing leaves the block: the later range moves down into its place. */
  lemma FindSpacePtrZeroExample()
    ensures FindSpacePtr([Ptr(66, 102, 32), Ptr(201, 0, 8)], 32, 4096) == (0, Ptr(66, 102, 32), [Ptr(201, 0, 8)])
  {
    var slots := [Ptr(66, 102, 32), Ptr(201, 0, 8)];
    assert FirstFit(slots, 32) == 0;
    assert slots[..0] + slots[1..] == [Ptr(201, 0, 8)];
  }

  // ---------------------------------------------------------------------------
  // A fresh database's free list (page size 4096): one block on page 2 holding
  // the range (3, 0, 4096), with the file at 5 pages.

  /** One 32-byte carving from the fresh free list. */
  lemma FirstCarveExample()
    ensures Allocate(5, 4096, [FreeBlock(2, [Ptr(3, 0, 4096)])], 32)
            == Allocation(false, Ptr(3, 0, 32), 0, [FreeBlock(2, [Ptr(3, 32, 4064)])])
  {
    var free := [FreeBlock(2, [Ptr(3, 0, 4096)])];
    assert free[0].slots[0].size >= 32;
    assert Fits(free[0], 32);
    assert FirstFitBlock(free, 32) == 0;
    assert FirstFit(free[0].slots, 32) == 0;
    assert Shift(Ptr(3, 0, 4096), 32, 4096) == Ptr(3, 32, 4064);
    assert free[0].slots[0 := Ptr(3, 32, 4064)] == [Ptr(3, 32, 4064)];
    assert FindSpacePtr(free[0].slots, 32, 4096) == (0, Ptr(3, 0, 32), [Ptr(3, 32, 4064)]);
  }

  /** Two 32-byte allocations share the first storage page, one after the other, without growth. */
  lemma AllocateTwiceExample()
    ensures var free := [FreeBlock(2, [Ptr(3, 0, 4096)])];
            var a1 := Allocate(5, 4096, free, 32);
            var a2 := Allocate(5, 4096, a1.free, 32);
            && !a1.grew && !a2.grew
            && a1.ptr == Ptr(3, 0, 32) && a2.ptr == Ptr(3, 32, 32)
            && a2.free == [FreeBlock(2, [Ptr(3, 64, 4032)])]
  {
    FirstCarveExample();
    var free := [FreeBlock(2, [Ptr(3, 32, 4064)])];
    assert free[0].slots[0].size >= 32;
    assert Fits(free[0], 32);
    assert FirstFitBlock(free, 32) == 0;
    assert FirstFit(free[0].slots, 32) == 0;
    assert Shift(Ptr(3, 32, 4064), 32, 4096) == Ptr(3, 64, 4032);
    assert free[0].slots[0 := Ptr(3, 64, 4032)] == [Ptr(3, 64, 4032)];
    assert FindSpacePtr(free[0].slots, 32, 4096) == (0, Ptr(3, 32, 32), [Ptr(3, 64, 4032)]);
  }

  /**
    After a small allocation, one of two pages does not fit: the file grows by
    `8192 / 4096 + 1` pages and the pointer is the whole range recorded at the
    old page count.
  */
  lemma AllocateLargeExample()
    ensures var a1 := Allocate(5, 4096, [FreeBlock(2, [Ptr(3, 0, 4096)])], 32);
            var a2 := Allocate(5, 4096, a1.free, 8192);
            && a2.grew && a2.ptr == Ptr(5, 0, 8192) && a2.grown == 3 && a2.free == a1.free
  {
    FirstCarveExample();
    var free := [FreeBlock(2, [Ptr(3, 32, 4064)])];
    assert !Fits(free[0], 8192) by {
      assert FirstFit(free[0].slots, 8192) == -1;
    }
    assert !FitsAny(free, 8192) by {
      assert FirstFitBlock(free, 8192) == -1;
    }
    assert FindSpaceBlock(free, ItemsPerBlock(4096)) == 0;
  }

  /** Deallocating the two ranges appends each to the one free block: its count rises by one each time. */
  lemma DeallocateTwiceExample()
    ensures var free := [FreeBlock(2, [Ptr(3, 64, 4032)])];
            var d1 := Deallocate(5, 4096, free, Ptr(3, 0, 32));
            var d2 := Deallocate(5, 4096, d1.2, Ptr(3, 32, 32));
            && d1.0 && d2.0 && d1.1 == 0 && d2.1 == 0
            && |d1.2| == |d2.2| == 1
            && |d1.2[0].slots| == 2 && |d2.2[0].slots| == 3
  {
    var free := [FreeBlock(2, [Ptr(3, 64, 4032)])];
    assert FindSpaceBlock(free, ItemsPerBlock(4096)) == 0;
    var d1 := Deallocate(5, 4096, free, Ptr(3, 0, 32));
    assert FindSpaceBlock(d1.2, ItemsPerBlock(4096)) == 0;
  }
}

=== FILE: page_io.dfy ===
/**
  The page-chunked loops of the paged store: `dbfile_write_po`,
  `dbfile_read_po`, `dbfile_write`, `dbfile_read`, `dbfile_hash_null` and
  `dbfile_cmp_null`. Each walks `(page, offset)` forward, copies or scans the
  part of the range that lies in the current page (asking for the page first,
  which may grow the file), and continues at `(page + 1, 0)`.

  The loops compute `pageSize - offset` in unsigned arithmetic, so every entry
  point requires `offset < pageSize`.
*/
module PageIo {
  import opened Bytes
  import opened PagedFile
  import Djb2

  /** `g` with the bytes from flat position `at` replaced by `c`. */
  function Splice(g: File, at: nat, c: seq<byte>): File
    requires at + |c| <= |g.bytes|
  {
    File(g.pageSize, g.pageCount, g.bytes[..at] + c + g.bytes[at + |c|..])
  }

  /** One chunk of a write: ask for the page, then copy the chunk into it. */
  lemma WriteStep(f: File, g: File, start: nat, d: seq<byte>, c: seq<byte>, page: nat, offset: nat)
    requires Valid(f) && WrittenAs(g, f, start, d)
    requires offset < f.pageSize && start + |d| == page * f.pageSize + offset
    requires 1 <= |c| <= f.pageSize - offset
    ensures var g1 := GetPage(g, page);
            var at := page * f.pageSize + offset;
            at + |c| <= |g1.bytes| && WrittenAs(Splice(g1, at, c), f, start, d + c)
  {
    var p := f.pageSize;
    var g1 := GetPage(g, page);
    var at := page * p + offset;
    CoverStep(start, |d|, |c|, page, offset, p);
    MulMono(f.pageCount, g.pageCount, p);
    CoverHolds(start, |d|, p);
    if |d| > 0 {
      MulMono(Cover(start, |d|, p), g.pageCount, p);
    }
    var g2 := Splice(g1, at, c);
    forall i | 0 <= i < |g2.bytes|
      ensures g2.bytes[i] == (if start <= i < start + |d + c| then (d + c)[i - start] else ByteAt(f, i))
    {
      if at <= i < at + |c| {
        assert g2.bytes[i] == c[i - at];
      } else {
        assert g2.bytes[i] == g1.bytes[i] == ByteAt(g, i);
      }
    }
  }

  /**
    `dbfile_write_po`: write `data` starting at byte `offset` of page `page`,
    chunk by chunk across page boundaries. The result is exactly the flat write.
  */
  method WritePages(f: File, page: nat, offset: nat, data: seq<byte>) returns (g: File)
    requires Valid(f) && offset < f.pageSize
    ensures g == WriteFlat(f, Position(f, page, offset), data)
    ensures Valid(g) && g.pageSize == f.pageSize
  {
    var p := f.pageSize;
    ghost var start := page * p + offset;
    var curPage := page;
    var curOff := offset;
    var size: nat := |data|;
    var pos: nat := 0;
    g := f;
    assert data[..0] == [];
    while size > 0
      invariant pos + size == |data|
      invariant curOff < p
      invariant size > 0 ==> curPage * p + curOff == start + pos
      invariant WrittenAs(g, f, start, data[..pos])
      decreases size
    {
      var room := p - curOff;
      var n := if room > size then size else room;
      var at := curPage * p + curOff;
      WriteStep(f, g, start, data[..pos], data[pos..pos + n], curPage, curOff);
      assert data[..pos] + data[pos..pos + n] == data[..pos + n];
      g := GetPage(g, curPage);
      g := Splice(g, at, data[pos..pos + n]);
      size := if room > size then 0 else size - room;
      pos := pos + n;
      curOff := 0;
      curPage := curPage + 1;
    }
    assert data[..pos] == data;
    WrittenAsUnique(g, WriteFlat(f, start, data), f, start, data);
  }

  /** `n` bytes of page `page` from `offset`, after asking for the page. */
  function PageSlice(g: File, page: nat, offset: nat, n: nat): (c: seq<byte>)
    requires Valid(g) && offset < g.pageSize && n <= g.pageSize - offset
    ensures |c| == n
  {
    var g1 := GetPage(g, page);
    g1.bytes[page * g.pageSize + offset..page * g.pageSize + offset + n]
  }

  /** Asking for page `page` and looking at `n` bytes from `offset` in it sees the file's bytes there. */
  lemma ChunkStep(f: File, g: File, k: nat, page: nat, offset: nat, n: nat)
    requires Valid(f) && ExtendsTo(g, f, k) && offset < f.pageSize && 1 <= n <= f.pageSize - offset
    ensures PageSlice(g, page, offset, n) == ReadFlat(f, page * f.pageSize + offset, n)
    ensures ExtendsTo(GetPage(g, page), f, Max(k, page + 1))
  {
    var p := f.pageSize;
    var at := page * p + offset;
    var g1 := GetPage(g, page);
    assert g.pageSize == p;
    assert (page + 1) * p == page * p + p;
    ExtendsTrans(g1, g, f, k, page + 1);
    ExtendsKeepsBytes(g1, f, Max(k, page + 1));
    var c := PageSlice(g, page, offset, n);
    assert c == g1.bytes[at..at + n];
    forall j | 0 <= j < n
      ensures c[j] == ByteAt(f, at + j)
    {
      assert c[j] == g1.bytes[at + j] == ByteAt(g1, at + j);
    }
  }

  /** The same for a file that already extends `f` to its own size. */
  lemma PageSliceRead(f: File, g: File, page: nat, offset: nat, n: nat)
    requires Valid(f) && ExtendsTo(g, f, g.pageCount) && offset < f.pageSize && 1 <= n <= f.pageSize - offset
    ensures PageSlice(g, page, offset, n) == ReadFlat(f, page * f.pageSize + offset, n)
    ensures ExtendsTo(GetPage(g, page), f, GetPage(g, page).pageCount)
  {
    ChunkStep(f, g, g.pageCount, page, offset, n);
  }

  /** Reading on from where a flat read stopped extends it. */
  lemma ReadFlatConcat(f: File, start: nat, a: nat, b: nat)
    ensures ReadFlat(f, start, a) + ReadFlat(f, start + a, b) == ReadFlat(f, start, a + b)
  {
    var l := ReadFlat(f, start, a) + ReadFlat(f, start + a, b);
    var r := ReadFlat(f, start, a + b);
    forall i | 0 <= i < |r|
      ensures l[i] == r[i]
    {
      if i >= a {
        assert l[i] == ReadFlat(f, start + a, b)[i - a];
      }
    }
  }

  /** One chunk of a read: ask for the page, then copy the chunk out of it. */
  lemma ReadStep(f: File, g: File, start: nat, pos: nat, n: nat, page: nat, offset: nat)
    requires Valid(f) && ExtendsTo(g, f, Cover(start, pos, f.pageSize))
    requires offset < f.pageSize && start + pos == page * f.pageSize + offset
    requires 1 <= n <= f.pageSize - offset
    ensures ExtendsTo(GetPage(g, page), f, Cover(start, pos + n, f.pageSize))
    ensures ReadFlat(f, start, pos) + PageSlice(g, page, offset, n) == ReadFlat(f, start, pos + n)
  {
    CoverStep(start, pos, n, page, offset, f.pageSize);
    ChunkStep(f, g, Cover(start, pos, f.pageSize), page, offset, n);
    ReadFlatConcat(f, start, pos, n);
  }

  /**
    `dbfile_read_po`: read `size` bytes starting at byte `offset` of page `page`.
    The result is the flat range; the file only gains the zero pages it asked for.
  */
  method ReadPages(f: File, page: nat, offset: nat, size: nat) returns (data: seq<byte>, g: File)
    requires Valid(f) && offset < f.pageSize
    ensures data == ReadFlat(f, Position(f, page, offset), size)
    ensures ExtendsTo(g, f, Cover(Position(f, page, offset), size, f.pageSize))
  {
    var p := f.pageSize;
    ghost var start := page * p + offset;
    var curPage := page;
    var curOff := offset;
    var rest: nat := size;
    ghost var pos: nat := 0;
    data := [];
    g := Extend(f, 0);
    while rest > 0
      invariant pos + rest == size
      invariant curOff < p
      invariant rest > 0 ==> curPage * p + curOff == start + pos
      invariant ExtendsTo(g, f, Cover(start, pos, p))
      invariant data == ReadFlat(f, start, pos)
      decreases rest
    {
      var room := p - curOff;
      var n := if room > rest then rest else room;
      ReadStep(f, g, start, pos, n, curPage, curOff);
      data := data + PageSlice(g, curPage, curOff, n);
      g := GetPage(g, curPage);
      rest := if room > rest then 0 else rest - room;
      pos := pos + n;
      curOff := 0;
      curPage := curPage + 1;
    }
  }

  /** `dbfile_get_place`: split a flat offset into `(page, offset)`, failing past the end of the file. */
  function GetPlace(f: File, offset: nat): (r: (bool, nat, nat))
    requires Valid(f)
    ensures r.0 <==> offset < |f.bytes|
    ensures r.0 ==> r.2 < f.pageSize && r.1 * f.pageSize + r.2 == offset
  {
    if offset >= |f.bytes| then (false, 0, 0)
    else (true, offset / f.pageSize, offset % f.pageSize)
  }

  /**
    `dbfile_write`: the same chunked write, addressed by a flat offset; refused
    (file untouched) when the offset is not inside the file.
  */
  method WriteAt(f: File, offset: nat, data: seq<byte>) returns (ok: bool, g: File)
    requires Valid(f)
    ensures ok <==> offset < |f.bytes|
    ensures ok ==> g == WriteFlat(f, offset, data)
    ensures !ok ==> g == f
  {
    var place := GetPlace(f, offset);
    if !place.0 {
      return false, f;
    }
    g := WritePages(f, place.1, place.2, data);
    ok := true;
  }

  /** `dbfile_read`: the chunked read addressed by a flat offset, refused past the end of the file. */
  method ReadAt(f: File, offset: nat, size: nat) returns (ok: bool, data: seq<byte>, g: File)
    requires Valid(f)
    ensures ok <==> offset < |f.bytes|
    ensures ok ==> data == ReadFlat(f, offset, size) && ExtendsTo(g, f, Cover(offset, size, f.pageSize))
    ensures !ok ==> g == f && data == []
  {
    var place := GetPlace(f, offset);
    if !place.0 {
      return false, [], f;
    }
    data, g := ReadPages(f, place.1, place.2, size);
    ok := true;
  }

  /** Writing through the chunked loop and reading the range back through the chunked loop returns what was written. */
  method WriteThenRead(f: File, page: nat, offset: nat, data: seq<byte>) returns (back: seq<byte>, g: File)
    requires Valid(f) && offset < f.pageSize
    ensures back == data
    ensures forall i :: i < Position(f, page, offset) || Position(f, page, offset) + |data| <= i ==>
              ByteAt(g, i) == ByteAt(f, i)
  {
    var w := WritePages(f, page, offset, data);
    back, g := ReadPages(w, page, offset, |data|);
    WriteThenReadFlat(f, Position(f, page, offset), data, 0, 0);
    ExtendsKeepsBytes(g, w, Cover(Position(f, page, offset), |data|, f.pageSize));
    forall i | i < Position(f, page, offset) || Position(f, page, offset) + |data| <= i
      ensures ByteAt(g, i) == ByteAt(f, i)
    {
      WriteFlatOutside(f, Position(f, page, offset), data, i);
    }
  }

  // ---------------------------------------------------------------------------
  // NUL-scanning loops

  /** A non-zero byte lies inside the file. */
  lemma NonZeroInFile(f: File, page: nat, offset: nat)
    requires Valid(f) && ByteAt(f, page * f.pageSize + offset) != 0
    ensures page < f.pageCount
  {
    if page >= f.pageCount {
      MulMono(f.pageCount, page, f.pageSize);
    }
  }

  /** One `hash_djb2_n` chunk of `dbfile_hash_null`, read from flat position `x`. */
  lemma HashStep(f: File, h: nat, x: nat, s: seq<byte>, n: nat, y: nat)
    requires n == |s| && n >= 1 && y == x + n && s == ReadFlat(f, x, n)
    ensures var r := Djb2.HashN(s, n, h);
            && (r.0 ==> r.1 == Djb2.HashFrom(h, KeyAt(f, x)))
            && (!r.0 ==> ByteAt(f, x) != 0 && Djb2.HashFrom(h, KeyAt(f, x)) == Djb2.HashFrom(r.1, KeyAt(f, y)))
  {
    KeyAtChunk(f, x, s, h);
    var r := Djb2.HashN(s, n, h);
    if !r.0 {
      assert s[..n] == s;
      assert NoNul(s);
      var rest := KeyAt(f, y);
      assert KeyAt(f, x) == s + rest;
      Djb2.HashFromAppend(h, s, rest);
      assert s[0] != 0;
    }
  }

  /** A chunk of bytes read in place from flat position `x`. */
  lemma {:induction false} KeyAtChunk(f: File, x: nat, s: seq<byte>, h: nat)
    requires forall j :: 0 <= j < |s| ==> s[j] == ByteAt(f, x + j)
    ensures NoNul(s) ==> KeyAt(f, x) == s + KeyAt(f, x + |s|)
    ensures !NoNul(s) ==> Djb2.HashFrom(h, s) == Djb2.HashFrom(h, KeyAt(f, x))
    decreases |s|
  {
    if |s| > 0 {
      if s[0] == 0 {
      } else {
        KeyAtChunk(f, x + 1, s[1..], Djb2.Step(h, s[0]));
        if NoNul(s) {
          assert s == [s[0]] + s[1..];
        } else {
          assert !NoNul(s[1..]);
        }
      }
    }
  }

  /** The loop state of `dbfile_hash_null` before the key's NUL has been seen. */
  ghost predicate HashScanning(f: File, g: File, start: nat, h: nat, pos: nat, page: nat, offset: nat) {
    && Valid(f)
    && offset < f.pageSize
    && ExtendsTo(g, f, g.pageCount)
    && page * f.pageSize + offset == start + pos
    && Djb2.HashFrom(h, KeyAt(f, start + pos)) == Djb2.Hash(KeyAt(f, start))
  }

  /** One iteration of `dbfile_hash_null`: either the NUL is in this chunk and the hash is final, or scanning moves on. */
  lemma HashNullStep(f: File, g: File, start: nat, h: nat, pos: nat, page: nat, offset: nat, n: nat)
      returns (r: (bool, nat), g1: File)
    requires HashScanning(f, g, start, h, pos, page, offset) && n == f.pageSize - offset
    ensures r == Djb2.HashN(PageSlice(g, page, offset, n), n, h)
    ensures g1 == GetPage(g, page)
    ensures ExtendsTo(g1, f, g1.pageCount)
    ensures r.0 ==> r.1 == Djb2.Hash(KeyAt(f, start))
    ensures !r.0 ==> page < f.pageCount && HashScanning(f, g1, start, r.1, pos + n, page + 1, 0)
  {
    var p := f.pageSize;
    var at := page * p + offset;
    PageSliceRead(f, g, page, offset, n);
    var chunk := PageSlice(g, page, offset, n);
    HashStep(f, h, at, chunk, n, start + (pos + n));
    r := Djb2.HashN(chunk, n, h);
    g1 := GetPage(g, page);
    if !r.0 {
      NonZeroInFile(f, page, offset);
      assert (page + 1) * p == page * p + p;
    }
  }

  /**
    `dbfile_hash_null`: the djb2 hash of the NUL-terminated key stored from
    `(page, offset)`, hashed one page-bounded chunk at a time with `hash_djb2_n`.
    The scan always stops: a page past the end of the file is grown zero-filled.
  */
  method HashNull(f: File, page: nat, offset: nat) returns (h: nat, g: File)
    requires Valid(f) && offset < f.pageSize
    ensures h == Djb2.Hash(KeyAt(f, Position(f, page, offset)))
    ensures ExtendsTo(g, f, g.pageCount)
  {
    var p := f.pageSize;
    ghost var start := page * p + offset;
    var curPage := page;
    var curOff := offset;
    h := Djb2.Base;
    var found := false;
    ghost var pos: nat := 0;
    g := Extend(f, 0);
    while !found
      invariant ExtendsTo(g, f, g.pageCount)
      invariant !found ==> HashScanning(f, g, start, h, pos, curPage, curOff)
      invariant found ==> h == Djb2.Hash(KeyAt(f, start))
      decreases !found, f.pageCount - curPage
    {
      var room := p - curOff;
      var r := Djb2.HashN(PageSlice(g, curPage, curOff, room), room, h);
      ghost var r', g1 := HashNullStep(f, g, start, h, pos, curPage, curOff, room);
      g := GetPage(g, curPage);
      found := r.0;
      h := r.1;
      pos := pos + room;
      curOff := 0;
      curPage := curPage + 1;
    }
  }

  /**
    `strncmp(a, b, n) == 0`: the first `n` bytes agree, where the comparison
    also stops early at a NUL both strings share.
  */
  function StrnEq(a: seq<byte>, b: seq<byte>, n: nat): bool
    requires n <= |a| && n <= |b|
    decreases n
  {
    n == 0 || (a[0] == b[0] && (a[0] == 0 || StrnEq(a[1..], b[1..], n - 1)))
  }

  /** Equal ranges compare equal; a range without an early NUL compares equal only if it is equal. */
  lemma {:induction false} StrnEqSpec(a: seq<byte>, b: seq<byte>, n: nat)
    requires n <= |a| && n <= |b|
    ensures a[..n] == b[..n] ==> StrnEq(a, b, n)
    ensures (forall i :: 0 <= i < n - 1 ==> a[i] != 0) ==> (StrnEq(a, b, n) ==> a[..n] == b[..n])
    decreases n
  {
    if n > 0 {
      StrnEqSpec(a[1..], b[1..], n - 1);
      if a[..n] == b[..n] {
        assert a[0] == a[..n][0] == b[..n][0] == b[0];
        assert a[1..][..n - 1] == a[..n][1..] == b[..n][1..] == b[1..][..n - 1];
      }
      if (forall i :: 0 <= i < n - 1 ==> a[i] != 0) && StrnEq(a, b, n) {
        if n > 1 {
          assert a[0] != 0;
          assert forall i :: 0 <= i < n - 2 ==> a[1..][i] == a[i + 1];
          assert a[..n] == [a[0]] + a[1..][..n - 1];
          assert b[..n] == [b[0]] + b[1..][..n - 1];
        }
      }
    }
  }

  /** No NUL among the first `size - 1` bytes: the key part of a key with its terminator. */
  ghost predicate NoEarlyNul(data: seq<byte>, size: nat)
    requires size <= |data|
  {
    forall i :: 0 <= i < size - 1 ==> data[i] != 0
  }

  /**
    One `strncmp` chunk of `dbfile_cmp_null`, comparing `data[pos..pos+n]` with the
    stored bytes at flat position `start + pos`: a mismatch means the whole ranges
    differ; a match extends the agreeing prefix when `data` has no early NUL.
  */
  lemma CmpStep(f: File, start: nat, data: seq<byte>, size: nat, pos: nat, n: nat, stored: seq<byte>)
    requires pos + n <= size <= |data| && stored == ReadFlat(f, start + pos, n)
    ensures !StrnEq(data[pos..pos + n], stored, n) ==> ReadFlat(f, start, size) != data[..size]
    ensures NoEarlyNul(data, size) && StrnEq(data[pos..pos + n], stored, n) && ReadFlat(f, start, pos) == data[..pos] ==>
              ReadFlat(f, start, pos + n) == data[..pos + n]
  {
    var mine := data[pos..pos + n];
    StrnEqSpec(mine, stored, n);
    assert mine[..n] == mine && stored[..n] == stored;
    if !StrnEq(mine, stored, n) && ReadFlat(f, start, size) == data[..size] {
      assert forall j :: 0 <= j < n ==> mine[j] == ReadFlat(f, start, size)[pos + j] == stored[j];
    }
    if NoEarlyNul(data, size) && StrnEq(mine, stored, n) && ReadFlat(f, start, pos) == data[..pos] {
      assert forall i :: 0 <= i < n - 1 ==> mine[i] != 0;
      ReadFlatConcat(f, start, pos, n);
      assert data[..pos + n] == data[..pos] + mine;
    }
  }

  /** What `dbfile_cmp_null` promises about its answer `eq` for the range at flat position `start`. */
  ghost predicate CmpAnswer(f: File, start: nat, data: seq<byte>, size: nat, eq: bool)
    requires size <= |data|
  {
    && (ReadFlat(f, start, size) == data[..size] ==> eq)
    && (NoEarlyNul(data, size) ==> (eq <==> ReadFlat(f, start, size) == data[..size]))
  }

  /** The loop state of `dbfile_cmp_null` while chunks remain: every chunk so far compared equal. */
  ghost predicate CmpScanning(f: File, g: File, start: nat, data: seq<byte>, size: nat, pos: nat, page: nat, offset: nat) {
    && Valid(f)
    && offset < f.pageSize
    && pos < size <= |data|
    && page * f.pageSize + offset == start + pos
    && ExtendsTo(g, f, g.pageCount)
    && (NoEarlyNul(data, size) ==> ReadFlat(f, start, pos) == data[..pos])
  }

  /** One iteration of `dbfile_cmp_null`: a mismatching chunk settles the answer, a matching one moves on. */
  lemma CmpNullStep(f: File, g: File, start: nat, data: seq<byte>, size: nat, pos: nat, page: nat, offset: nat, n: nat)
      returns (same: bool, g1: File)
    requires CmpScanning(f, g, start, data, size, pos, page, offset)
    requires n == if f.pageSize - offset > size - pos then size - pos else f.pageSize - offset
    ensures same == StrnEq(data[pos..pos + n], PageSlice(g, page, offset, n), n)
    ensures g1 == GetPage(g, page)
    ensures ExtendsTo(g1, f, g1.pageCount)
    ensures !same ==> CmpAnswer(f, start, data, size, false)
    ensures same && pos + n < size ==> CmpScanning(f, g1, start, data, size, pos + n, page + 1, 0)
    ensures same && pos + n == size ==> CmpAnswer(f, start, data, size, true)
  {
    PageSliceRead(f, g, page, offset, n);
    var stored := PageSlice(g, page, offset, n);
    same := StrnEq(data[pos..pos + n], stored, n);
    CmpStep(f, start, data, size, pos, n, stored);
    g1 := GetPage(g, page);
    if same && pos + n < size {
      assert (page + 1) * f.pageSize == page * f.pageSize + f.pageSize;
    }
  }

  /** The chunked comparison loop of `dbfile_cmp_null`, from flat position `start`. */
  method CmpLoop(f: File, page: nat, offset: nat, data: seq<byte>, size: nat) returns (eq: bool, g: File)
    requires Valid(f) && offset < f.pageSize && size <= |data|
    ensures ExtendsTo(g, f, g.pageCount)
    ensures CmpAnswer(f, page * f.pageSize + offset, data, size, eq)
  {
    var p := f.pageSize;
    ghost var start := page * p + offset;
    var curPage := page;
    var curOff := offset;
    var pos: nat := 0;
    g := Extend(f, 0);
    if size == 0 {
      assert ReadFlat(f, start, 0) == data[..0];
      return true, g;
    }
    while pos < size
      invariant pos <= size
      invariant ExtendsTo(g, f, g.pageCount)
      invariant pos < size ==> CmpScanning(f, g, start, data, size, pos, curPage, curOff)
      invariant pos == size ==> CmpAnswer(f, start, data, size, true)
      decreases size - pos
    {
      var room := p - curOff;
      var n := if room > size - pos then size - pos else room;
      var same := StrnEq(data[pos..pos + n], PageSlice(g, curPage, curOff, n), n);
      ghost var same', g1 := CmpNullStep(f, g, start, data, size, pos, curPage, curOff, n);
      g := GetPage(g, curPage);
      if !same {
        return false, g;
      }
      pos := pos + n;
      curOff := 0;
      curPage := curPage + 1;
    }
    eq := true;
  }

  /**
    `dbfile_cmp_null`: compare the stored bytes from `(page, offset)` with the
    first `size` bytes of `data`, one page-bounded `strncmp` at a time.
    Equal ranges always compare equal; when `data` has no NUL before its last
    compared byte (a key with its terminator), equality of the ranges is exactly
    the answer.
  */
  method CmpNull(f: File, page: nat, offset: nat, data: seq<byte>, size: nat) returns (eq: bool, g: File)
    requires Valid(f) && offset < f.pageSize && size <= |data|
    ensures ExtendsTo(g, f, g.pageCount)
    ensures ReadFlat(f, Position(f, page, offset), size) == data[..size] ==> eq
    ensures NoEarlyNul(data, size) ==> (eq <==> ReadFlat(f, Position(f, page, offset), size) == data[..size])
  {
    eq, g := CmpLoop(f, page, offset, data, size);
  }
}

=== FILE: paged_file.dfy ===
/**
  The paged byte store (`struct dbfile`): a file of `pageCount` pages of
  `pageSize` bytes each, seen as one flat byte sequence. Memory mapping is not
  modelled; growing the file appends zero-filled pages.

  The pure functions below (`ByteAt`, `ReadFlat`, `WriteFlat`, `KeyAt`) are the
  flat reference meaning of a byte range; the methods are the source's
  page-chunked loops, each proved to agree with the reference.
*/
module PagedFile {
  import opened Bytes
  import Djb2

  datatype File = File(pageSize: nat, pageCount: nat, bytes: seq<byte>)

  /** The file length is always `pageCount * pageSize`. */
  predicate Valid(f: File) {
    f.pageSize > 0 && |f.bytes| == f.pageCount * f.pageSize
  }

  function Max(a: nat, b: nat): nat {
    if a < b then b else a
  }

  /** The byte at flat position `i`; positions past the end read as the zeros growth would supply. */
  function ByteAt(f: File, i: int): byte {
    if 0 <= i < |f.bytes| then f.bytes[i] else 0
  }

  /** Flat position of byte `offset` of page `page`. */
  function Position(f: File, page: nat, offset: nat): nat {
    page * f.pageSize + offset
  }

  // ---------------------------------------------------------------------------
  // Arithmetic on page counts

  lemma MulMono(a: nat, b: nat, p: nat)
    requires a <= b
    ensures a * p <= b * p
  {
  }

  lemma MulCancel(a: nat, b: nat, p: nat)
    requires a * p < b * p
    ensures a < b
  {
    if b <= a { MulMono(b, a, p); }
  }

  lemma DivUnique(x: nat, p: nat, q: nat)
    requires p > 0
    requires q * p <= x < q * p + p
    ensures x / p == q
  {
    var r := x / p;
    assert x == r * p + x % p;
    if r > q {
      MulMono(q + 1, r, p);
    } else if r < q {
      MulMono(r + 1, q, p);
    }
  }

  /** Number of pages needed so that byte `e - 1` exists: ceil(e / p). */
  function PagesFor(e: nat, p: nat): nat
    requires p > 0
  {
    (e + p - 1) / p
  }

  lemma PagesForBounds(e: nat, p: nat)
    requires p > 0 && e >= 1
    ensures PagesFor(e, p) >= 1
    ensures (PagesFor(e, p) - 1) * p < e <= PagesFor(e, p) * p
  {
    var x := e + p - 1;
    var k := x / p;
    assert x == k * p + x % p;
  }

  lemma PagesForExact(e: nat, p: nat, k: nat)
    requires p > 0 && k >= 1
    requires (k - 1) * p < e <= k * p
    ensures PagesFor(e, p) == k
  {
    DivUnique(e + p - 1, p, k);
  }

  /** The number of pages a chunked loop over `[start, start + n)` touches up to. */
  function Cover(start: nat, n: nat, p: nat): nat
    requires p > 0
  {
    if n == 0 then 0 else PagesFor(start + n, p)
  }

  lemma CoverHolds(start: nat, n: nat, p: nat)
    requires p > 0
    ensures start + n <= Cover(start, n, p) * p || n == 0
  {
    if n > 0 { PagesForBounds(start + n, p); }
  }

  /** One chunk inside page `page` extends the pages touched to exactly `page + 1`. */
  lemma CoverStep(start: nat, pos: nat, n: nat, page: nat, offset: nat, p: nat)
    requires p > 0 && offset < p
    requires start + pos == page * p + offset
    requires 1 <= n <= p - offset
    ensures Cover(start, pos + n, p) == page + 1
    ensures Cover(start, pos, p) <= page + 1
  {
    PagesForExact(start + pos + n, p, page + 1);
    if pos > 0 {
      var e := start + pos;
      PagesForBounds(e, p);
      var k := PagesFor(e, p);
      assert (k - 1) * p < (page + 1) * p;
      MulCancel(k - 1, page + 1, p);
    }
  }

  // ---------------------------------------------------------------------------
  // Growth

  /** `g` is `f` with zero pages appended so that it has `max(f.pageCount, k)` pages. */
  ghost predicate ExtendsTo(g: File, f: File, k: nat) {
    && Valid(g)
    && g.pageSize == f.pageSize
    && g.pageCount == Max(f.pageCount, k)
    && forall i :: 0 <= i < |g.bytes| ==> g.bytes[i] == ByteAt(f, i)
  }

  lemma ExtendsKeepsBytes(g: File, f: File, k: nat)
    requires Valid(f) && ExtendsTo(g, f, k)
    ensures |f.bytes| <= |g.bytes|
    ensures forall i :: ByteAt(g, i) == ByteAt(f, i)
  {
    MulMono(f.pageCount, g.pageCount, f.pageSize);
  }

  lemma ExtendsTrans(h: File, g: File, f: File, k1: nat, k2: nat)
    requires Valid(f) && ExtendsTo(g, f, k1) && ExtendsTo(h, g, k2)
    ensures ExtendsTo(h, f, Max(k1, k2))
  {
    ExtendsKeepsBytes(g, f, k1);
  }

  lemma ExtendsUnique(g1: File, g2: File, f: File, k: nat)
    requires ExtendsTo(g1, f, k) && ExtendsTo(g2, f, k)
    ensures g1 == g2
  {
    assert |g1.bytes| == |g2.bytes|;
    assert g1.bytes == g2.bytes;
  }

  /**
    `dbfile_grow`: append `n` zero pages and return the old page count, which is
    the index of the first new page.
  */
  function Grow(f: File, n: nat): (r: (nat, File))
    requires Valid(f)
    ensures r.0 == f.pageCount
    ensures ExtendsTo(r.1, f, f.pageCount + n)
    ensures r.1.pageCount == f.pageCount + n
  {
    var g := File(f.pageSize, f.pageCount + n, f.bytes + Zeros(n * f.pageSize));
    assert |g.bytes| == (f.pageCount + n) * f.pageSize;
    (f.pageCount, g)
  }

  /** Growing keeps every byte: the new pages read as the zeros past the end did. */
  lemma GrowKeepsBytes(f: File, n: nat)
    requires Valid(f)
    ensures Valid(Grow(f, n).1) && Grow(f, n).1.pageSize == f.pageSize
    ensures forall i :: ByteAt(Grow(f, n).1, i) == ByteAt(f, i)
  {
    ExtendsKeepsBytes(Grow(f, n).1, f, f.pageCount + n);
  }

  /** Grow the file, if need be, to at least `k` pages. */
  function Extend(f: File, k: nat): (g: File)
    requires Valid(f)
    ensures ExtendsTo(g, f, k)
  {
    if k <= f.pageCount then f else Grow(f, k - f.pageCount).1
  }

  /**
    `dbfile_get_page`: asking for page `n` grows the file first when `n` is at or
    past the current page count. The page itself is `bytes[n*P .. (n+1)*P]`.
  */
  function GetPage(f: File, n: nat): (g: File)
    requires Valid(f)
    ensures ExtendsTo(g, f, n + 1)
    ensures (n + 1) * f.pageSize <= |g.bytes|
  {
    var g := if n >= f.pageCount then Grow(f, n - f.pageCount + 1).1 else f;
    MulMono(n + 1, g.pageCount, f.pageSize);
    g
  }

  /** The file after a chunked loop has touched every page of `[start, start + n)`. */
  function Touch(f: File, start: nat, n: nat): (g: File)
    requires Valid(f)
    ensures ExtendsTo(g, f, Cover(start, n, f.pageSize))
    ensures start + n <= |g.bytes| || n == 0
  {
    var g := Extend(f, Cover(start, n, f.pageSize));
    CoverHolds(start, n, f.pageSize);
    MulMono(Cover(start, n, f.pageSize), g.pageCount, f.pageSize);
    g
  }

  // ---------------------------------------------------------------------------
  // Flat reference meaning of reads and writes

  /** The `n` bytes from flat position `start`. */
  function ReadFlat(f: File, start: nat, n: nat): (r: seq<byte>)
    ensures |r| == n
    ensures forall i :: 0 <= i < n ==> r[i] == ByteAt(f, start + i)
    decreases n
  {
    if n == 0 then [] else [ByteAt(f, start)] + ReadFlat(f, start + 1, n - 1)
  }

  /** `g` is `f` after writing `d` at `start`: pages grown to cover the range, the range holds `d`, all else as before. */
  ghost predicate WrittenAs(g: File, f: File, start: nat, d: seq<byte>) {
    && Valid(g)
    && g.pageSize == f.pageSize
    && f.pageSize > 0
    && g.pageCount == Max(f.pageCount, Cover(start, |d|, f.pageSize))
    && forall i :: 0 <= i < |g.bytes| ==>
         g.bytes[i] == (if start <= i < start + |d| then d[i - start] else ByteAt(f, i))
  }

  lemma WrittenAsUnique(g1: File, g2: File, f: File, start: nat, d: seq<byte>)
    requires WrittenAs(g1, f, start, d) && WrittenAs(g2, f, start, d)
    ensures g1 == g2
  {
    assert |g1.bytes| == |g2.bytes|;
    assert g1.bytes == g2.bytes;
  }

  /** Files that agree on every byte agree on every read. */
  lemma ReadFlatSame(g: File, f: File, start: nat, n: nat)
    requires forall i :: ByteAt(g, i) == ByteAt(f, i)
    ensures ReadFlat(g, start, n) == ReadFlat(f, start, n)
  {
    assert forall i :: 0 <= i < n ==> ReadFlat(g, start, n)[i] == ReadFlat(f, start, n)[i];
  }

  /** A read of `n` bytes splits after `m` into a read of `m` bytes and a read of the rest. */
  lemma ReadFlatSplit(f: File, start: nat, n: nat, m: nat)
    requires m <= n
    ensures ReadFlat(f, start, m) == ReadFlat(f, start, n)[..m]
    ensures ReadFlat(f, start + m, n - m) == ReadFlat(f, start, n)[m..]
  {
    var whole := ReadFlat(f, start, n);
    assert forall i :: 0 <= i < m ==> ReadFlat(f, start, m)[i] == whole[i];
    assert forall i :: 0 <= i < n - m ==> ReadFlat(f, start + m, n - m)[i] == whole[m..][i];
  }

  /** The flat write of `d` at `start`. */
  function WriteFlat(f: File, start: nat, d: seq<byte>): (g: File)
    requires Valid(f)
    ensures WrittenAs(g, f, start, d)
  {
    if |d| == 0 then f
    else
      var t := Touch(f, start, |d|);
      File(t.pageSize, t.pageCount, t.bytes[..start] + d + t.bytes[start + |d|..])
  }

  /** Reading back what was written yields it; every other position is unchanged. */
  lemma WriteThenReadFlat(f: File, start: nat, d: seq<byte>, n: nat, at: nat)
    requires Valid(f)
    ensures ReadFlat(WriteFlat(f, start, d), start, |d|) == d
    ensures at + n <= start || start + |d| <= at ==>
              ReadFlat(WriteFlat(f, start, d), at, n) == ReadFlat(f, at, n)
  {
    var g := WriteFlat(f, start, d);
    ExtendsKeepsBytes(Touch(f, start, |d|), f, Cover(start, |d|, f.pageSize));
    CoverHolds(start, |d|, f.pageSize);
    MulMono(f.pageCount, g.pageCount, f.pageSize);
    assert forall i :: 0 <= i < |d| ==> ByteAt(g, start + i) == d[i];
  }

  /** Writes never change a byte outside the written range. */
  lemma WriteFlatOutside(f: File, start: nat, d: seq<byte>, i: int)
    requires Valid(f)
    requires i < start || start + |d| <= i
    ensures ByteAt(WriteFlat(f, start, d), i) == ByteAt(f, i)
  {
    var g := WriteFlat(f, start, d);
    MulMono(f.pageCount, g.pageCount, f.pageSize);
  }

  /** The NUL-terminated string stored from flat position `start` (without its NUL). */
  function KeyAt(f: File, start: nat): (k: seq<byte>)
    ensures NoNul(k)
    ensures ByteAt(f, start + |k|) == 0
    decreases |f.bytes| - start
  {
    if ByteAt(f, start) == 0 then [] else [ByteAt(f, start)] + KeyAt(f, start + 1)
  }

  /** A stored key equals `k` exactly when the bytes there are `k` and its terminator. */
  lemma KeyAtIff(f: File, start: nat, k: seq<byte>)
    requires NoNul(k)
    ensures KeyAt(f, start) == k <==> ReadFlat(f, start, |k| + 1) == k + [0]
  {
    var s := KeyAt(f, start);
    if ReadFlat(f, start, |k| + 1) == k + [0] {
      KeyAtPrefix(f, start, k);
    }
    if s == k {
      KeyAtRead(f, start);
      var r := ReadFlat(f, start, |k| + 1);
      assert forall i :: 0 <= i < |k| ==> r[i] == ReadFlat(f, start, |k|)[i];
      assert r == k + [0];
    }
  }

  /** The stored key is exactly the bytes a flat read of its length sees. */
  lemma {:induction false} KeyAtRead(f: File, start: nat)
    ensures KeyAt(f, start) == ReadFlat(f, start, |KeyAt(f, start)|)
    decreases |f.bytes| - start
  {
    if ByteAt(f, start) != 0 {
      KeyAtRead(f, start + 1);
    }
  }

  lemma {:induction false} KeyAtPrefix(f: File, start: nat, k: seq<byte>)
    requires NoNul(k)
    requires ReadFlat(f, start, |k| + 1) == k + [0]
    ensures KeyAt(f, start) == k
    decreases |k|
  {
    var r := ReadFlat(f, start, |k| + 1);
    assert r[0] == ByteAt(f, start);
    if |k| > 0 {
      assert r[0] == k[0];
      var r' := ReadFlat(f, start + 1, |k[1..]| + 1);
      forall i | 0 <= i < |r'|
        ensures r'[i] == (k[1..] + [0])[i]
      {
        assert r'[i] == ByteAt(f, start + (i + 1)) == r[i + 1];
      }
      assert r' == k[1..] + [0];
      KeyAtPrefix(f, start + 1, k[1..]);
      assert k == [k[0]] + k[1..];
    } else {
      assert r[0] == 0;
    }
  }

  lemma KeyAtExtends(g: File, f: File, m: nat, start: nat)
    requires Valid(f) && ExtendsTo(g, f, m)
    ensures KeyAt(g, start) == KeyAt(f, start)
  {
    ExtendsKeepsBytes(g, f, m);
    KeyAtSame(g, f, start);
  }

  lemma {:induction false} KeyAtSame(g: File, f: File, start: nat)
    requires forall i :: ByteAt(g, i) == ByteAt(f, i)
    ensures KeyAt(g, start) == KeyAt(f, start)
    decreases |f.bytes| - start + |g.bytes|
  {
    if ByteAt(f, start) != 0 {
      assert start < |f.bytes| && start < |g.bytes|;
      KeyAtSame(g, f, start + 1);
    }
  }
}

=== FILE: storage_ptr.dfy ===
/**
  Storage pointers and block capacities.

  A storage pointer is the triple `(page, offset, size)` of 32-bit integers
  that both the hash directory slots and the free-list slots hold. In a
  directory slot, page 0 means the slot was never used and page -1 marks a
  deleted slot (a tombstone); any other page is a live record.
*/
module StoragePtr {

  datatype Ptr = Ptr(page: int, offset: int, size: int)

  /** The pointer every fresh (zero-filled) slot holds. */
  const EmptyPtr := Ptr(0, 0, 0)

  /** `_is_empty_ins_storage_ptr`: the slot has never held a record. */
  predicate IsEmpty(p: Ptr) {
    p.page == 0
  }

  /** `_is_del_storage_ptr`: the slot held a record that was deleted. */
  predicate IsTombstone(p: Ptr) {
    p.page == -1
  }

  /** A slot that points at a record: what rehashing and deallocation act on (page at least 1). */
  predicate IsLive(p: Ptr) {
    p.page >= 1
  }

  /** `_mark_del_storage_ptr`: only the page field changes. */
  function MarkDeleted(p: Ptr): (r: Ptr)
    ensures IsTombstone(r) && !IsEmpty(r) && !IsLive(r)
    ensures r.offset == p.offset && r.size == p.size
  {
    p.(page := -1)
  }

  /** Flat byte position a pointer designates, for page size `pageSize`. */
  function Loc(p: Ptr, pageSize: nat): int {
    p.page * pageSize + p.offset
  }

  /**
    `_shift_storage_ptr`: carve `amount` bytes off the front of a free range.
    The page moves by `amount / pageSize` but the offset moves by the whole
    `amount` (see `ShiftLoc`).
  */
  function Shift(p: Ptr, amount: nat, pageSize: nat): (r: Ptr)
    requires pageSize > 0
    ensures r.size == p.size - amount
  {
    Ptr(p.page + amount / pageSize, p.offset + amount, p.size - amount)
  }

  /** Carving from a live range leaves a live range: the page never moves back, nor the offset. */
  lemma ShiftLive(p: Ptr, amount: nat, pageSize: nat)
    requires pageSize > 0 && IsLive(p) && p.offset >= 0
    ensures IsLive(Shift(p, amount, pageSize)) && Shift(p, amount, pageSize).offset >= p.offset
  {
    assert amount / pageSize >= 0;
  }

  /**
    The position a shifted range designates moves by `amount` plus
    `amount / pageSize` whole pages: exact only for carvings shorter than a page.
  */
  lemma ShiftLoc(p: Ptr, amount: nat, pageSize: nat)
    requires pageSize > 0
    ensures Loc(Shift(p, amount, pageSize), pageSize) == Loc(p, pageSize) + amount + (amount / pageSize) * pageSize
    ensures amount < pageSize ==> Loc(Shift(p, amount, pageSize), pageSize) == Loc(p, pageSize) + amount
  {
    assert (p.page + amount / pageSize) * pageSize == p.page * pageSize + (amount / pageSize) * pageSize;
  }

  /** A live pointer with a non-negative offset designates a position past page 0. */
  lemma LiveLoc(p: Ptr, pageSize: nat)
    requires IsLive(p) && p.offset >= 0
    ensures Loc(p, pageSize) >= pageSize
  {
    assert p.page * pageSize >= pageSize;
  }

  /**
    `database_adv_to_val`: the pointer to the value part of a record whose key
    (with its NUL) is `keySize` bytes. Page and offset advance by quotient and
    remainder, so the designated position advances by exactly `keySize`
    (the offset may end up at or past `pageSize`; positions are flat).
  */
  function AdvToVal(p: Ptr, keySize: nat, pageSize: nat): (r: Ptr)
    requires pageSize > 0
    ensures Loc(r, pageSize) == Loc(p, pageSize) + keySize
    ensures r.size == p.size - keySize
    ensures p.offset >= 0 ==> r.offset >= 0
  {
    var r := Ptr(p.page + keySize / pageSize, p.offset + keySize % pageSize, p.size - keySize);
    assert (p.page + keySize / pageSize) * pageSize == p.page * pageSize + (keySize / pageSize) * pageSize;
    r
  }

  // ---------------------------------------------------------------------------
  // Block capacities

  /** Bytes of one pointer triple: three 32-bit integers. */
  const PtrBytes := 12
  /** Free-list block header: next page and slot count. */
  const LenBlockHeader := 8
  /** Hash block header: next page only. */
  const HashBlockHeader := 4

  /** `items_per_block`: the most pointer triples that fit in a page after the free-block header. */
  function ItemsPerBlock(pageSize: nat): (r: nat)
    requires pageSize >= LenBlockHeader
    ensures LenBlockHeader + r * PtrBytes <= pageSize
    ensures pageSize < LenBlockHeader + (r + 1) * PtrBytes
  {
    var port := pageSize - LenBlockHeader;
    (port - port % PtrBytes) / PtrBytes
  }

  /** `hashes_per_block`: the most pointer triples that fit in a page after the hash-block header. */
  function HashesPerBlock(pageSize: nat): (r: nat)
    requires pageSize >= HashBlockHeader
    ensures HashBlockHeader + r * PtrBytes <= pageSize
    ensures pageSize < HashBlockHeader + (r + 1) * PtrBytes
  {
    var port := pageSize - HashBlockHeader;
    (port - port % PtrBytes) / PtrBytes
  }

  /** A page size for which both kinds of block hold at least one slot. */
  predicate ValidPageSize(pageSize: nat) {
    pageSize >= LenBlockHeader + PtrBytes
  }

  lemma CapacitiesPositive(pageSize: nat)
    requires ValidPageSize(pageSize)
    ensures ItemsPerBlock(pageSize) >= 1 && HashesPerBlock(pageSize) >= 1
  {
  }
}
